=== FILE: README.md ===
# PingCanvas sampling core in Dafny

PingCanvas is a network dashboard. This project models its telemetry
sampling core and proves properties about it. The core has these parts:

- the reachability probe `ping`, which builds a `ping`/`ping6` command line and reads the average round-trip time from the summary line;
- the path probe `traceroute`, which builds a `traceroute`/`traceroute6` command line and turns each output line into a hop;
- the latency heatmap `NetworkHeatmap`, a hosts × timepoints grid with one write cursor that wraps around;
- `InterfaceStats`, which picks an interface, reads its counters, and turns two readings into per-second rates;
- one iteration of the dashboard's background loop in `main.py`, which appends a row to the history and trims it to 3600 entries.

Every Python exception the code can raise is a `Failure(error)` value. Every
`None` the code returns is `None`. Running a subprocess, reading `psutil`,
reading the clock and Python's `float()` are not modelled. They become inputs:
a `RunOutcome` value, a counter map, a `real` clock reading, and a partial
parser `parseFloat`.

Files:

- `base.dfy`: `Option`, `Result`, the exception kinds, and the subprocess outcome.
- `command.dfy`: the six-word command line that both probes build.
- `text.dfy`: the Python `str` operations the parsers use: `splitlines`, `split(sep)`, `split()`, `strip()` emptiness, `in`, `startswith` and `str(int)`. `splitlines`, `split(sep)`, `split()` and `str(int)` come with their inverses, and `strip()` emptiness with its relation to `split()`. `in` and `startswith` are plain definitions; the only fact proved about `in` is that a text lacking one character of a substring does not contain it.
- `ping.dfy`, `traceroute.dfy`, `heatmap.dfy`, `interface_stats.dfy`: the four source modules.
- `monitor_loop.dfy`: lines 25-41 of `src/main.py`.

Behaviour of the code that is easy to miss, and that the model follows:

- A traceroute line that is neither the header nor blank but has only one word is not skipped. `parts[1]` raises, and the whole result becomes `None`.
- `get_rates` neither guards nor clamps. An elapsed time of zero raises `ZeroDivisionError`. A negative elapsed time, or a counter that went backwards, is divided through as it stands.
- Rates are in bytes (or packets) per second, not megabits. The loop divides the received rate by 1,000,000.
- `measure` writes nothing for a host whose ping failed. After the cursor wraps around, that cell keeps the sample from one lap earlier rather than becoming missing.
- A heatmap with zero slots raises inside `measure`. This is `IndexError` when some ping succeeded and `ZeroDivisionError` otherwise.

## Model

| member | source | states |
|---|---|---|
| Text.SplitLines | src/ping.py:25 | `splitlines()` yields no more lines than the text has characters, and no line contains a line boundary |
| Text.SplitLinesOfJoinLines | src/ping.py:25 | the lines of a probe's newline-terminated output are recovered exactly by `splitlines()` |
| Text.Split | src/ping.py:27 | `split('/')` always yields at least one field, and no field contains the separator |
| Text.JoinOfSplit | src/ping.py:27 | re-joining the fields of `split(sep)` with `sep` gives the original text |
| Text.SplitOfJoin | src/ping.py:27 | splitting a join of separator-free fields gives exactly those fields |
| Text.SplitCount | src/ping.py:27 | `split(sep)` yields exactly one more field than the text has separators, so `[4]` exists only when there are at least four slashes |
| Text.Tokens | src/traceroute.py:28 | every word of `split()` is non-empty and free of whitespace |
| Text.TokensEmptyIffBlank | src/traceroute.py:26-28 | `split()` finds no word exactly when `strip()` leaves an empty string, so a line that is not skipped has at least one word |
| Text.TokensSkipBlank | src/traceroute.py:28 | leading whitespace does not change the words of a line |
| Text.TokensOfSpacedWords | src/traceroute.py:28 | `split()` recovers the words of a line however wide the whitespace between them |
| Text.NotContainsMissingChar | src/ping.py:26 | a line lacking any character of `avg` is not a summary line |
| Text.IntToStringRoundTrip | src/ping.py:17 | `str(n)` of an integer argument can be read back as the same integer |
| Text.ParseIntOnlyCanonical | src/ping.py:17 | the only text read back as `n` is `str(n)` itself, so `04`, `-0` and `+4` are not readings of any number |
| Command.Argv | src/ping.py:16-17 | a probe's command line is the program, two options whose values are exactly `str()` of the given integers (the only text read back as them), then the host |
| Ping.Argv | src/ping.py:14-17 | the command is `ping` or `ping6` by address family, then `-c <count> -W <timeout> <host>`, where the count and timeout fields are exactly `str(count)` and `str(timeout)` |
| Ping.AverageField | src/ping.py:27-28 | a summary line with fewer than four `/` has no field 4, and gives no result |
| Ping.AverageOfLines | src/ping.py:25-28 | no line containing `avg` means no result; a result comes from the first line containing `avg`, and from no other |
| Ping.Parse | src/ping.py:13-32 | a raised exception or a nonzero exit status gives `None`; a result implies the output had a summary line |
| Ping.ParseOfPrintedOutput | src/ping.py:23-28 | on exit status 0, the result is read from the printed lines in the order printed |
| Ping.AverageOfFields | src/ping.py:27-28 | of slash-separated fields, field 4 is the one handed to `float()` |
| Ping.FirstSummaryLineDecides | src/ping.py:25-28 | the first summary line decides the result; lines after it are never read |
| Ping.LaterLinesIgnored | src/ping.py:25-28 | output appended after a summary line never changes the result |
| Ping.SummaryMarkerInSecondField | src/ping.py:26 | a line whose second `/`-field is `avg` counts as a summary line |
| Ping.DialectSummary | src/ping.py:26-28 | a `<name> min/avg/max/<spread> = a/b/c/d ms` line is a summary line whose result is `float(b)` |
| Ping.BsdSummary | src/ping.py:26-28 | the BSD `round-trip min/avg/max/stddev = a/b/c/d ms` line yields `float(b)` |
| Ping.LinuxSummary | src/ping.py:26-28 | the Linux `rtt min/avg/max/mdev = a/b/c/d ms` line yields `float(b)` |
| Ping.BsdReferenceLine | tests/test_ping.py:13-26 | from the IPv4 test output, the field read is `13.610` |
| Ping.LinuxReferenceLine | tests/test_ping.py:39-52 | from the IPv6 test output, the field read is `15.250` |
| Ping.PrintedSummaryDecides | src/ping.py:23-28 | on exit status 0, when every line printed before a summary line lacks one letter of `avg`, the result is `float()` of that line's field 4 (the fifth `/`-separated field), whatever is printed after it |
| Traceroute.Argv | src/traceroute.py:14-17 | the command is `traceroute` or `traceroute6` by address family, then `-m <max_hops> -w <timeout> <host>`, where both numbers are written exactly as `str()` gives them |
| Traceroute.DefaultRequest | src/traceroute.py:3 | with its defaults, `traceroute(host)` runs `traceroute -m 30 -w 2 <host>` |
| Traceroute.HopOfWords | src/traceroute.py:29-32 | a hop `(parts[0], parts[1], parts[2:])` loses none of its line's words and reorders none |
| Traceroute.HopLines | src/traceroute.py:25-27 | every line kept as a hop line is neither the header nor blank, and there are at most as many as output lines |
| Traceroute.HopLinesOfLine | src/traceroute.py:26-27 | a single line is kept exactly when it is neither the header nor blank |
| Traceroute.HopLinesAppend | src/traceroute.py:25-27 | the hop lines of two stretches of output are those of the first followed by those of the second, so the selection keeps output order |
| Traceroute.ParseLines | src/traceroute.py:24-33 | a successful parse has no more hops than the output has lines |
| Traceroute.Parse | src/traceroute.py:13-37 | a raised exception or a nonzero exit status gives `None`; otherwise at most one hop per output line |
| Traceroute.ParseOfPrintedListing | src/traceroute.py:23-25 | on exit status 0, the printed lines are parsed one by one in order |
| Traceroute.WellFormedUnfold | src/traceroute.py:25-30 | a listing is well formed exactly when its first line is skipped or has two words, and the rest is well formed |
| Traceroute.ParseSucceedsIffWellFormed | src/traceroute.py:25-33 | parsing succeeds if and only if every hop line has at least two words |
| Traceroute.ParsedHopsAreHopLines | src/traceroute.py:25-33 | a successful parse has one hop per hop line, in output order, and each hop's words are exactly its line's words |
| Traceroute.OnlySkippedLinesGiveEmptyPath | src/traceroute.py:24-27 | output of only the header and blank lines gives the empty list, not `None` |
| Traceroute.SingleWordLineVoidsPath | src/traceroute.py:28-30 | one single-word hop line anywhere makes the whole result `None` |
| Traceroute.HopLineShape | src/traceroute.py:28-32 | `<number> <address> <rtt words…>` separated by any whitespace becomes the single hop `(number, address, rtt words)` |
| Traceroute.SingleHopLine | src/traceroute.py:26-32 | one hop line with at least two words parses to the one hop built from its words |
| Traceroute.NumberedLineNotSkipped | src/traceroute.py:26 | a line that starts with a hop number is never taken for the header or for a blank line |
| Traceroute.ReferenceHopLine | tests/test_traceroute.py:13-27 | the test line `1  192.168.1.1  1.123 ms` becomes `('1', '192.168.1.1', ['1.123', 'ms'])` |
| Heatmap.FloorDiv | src/heatmap.py:19 | Python's `//` rounds toward negative infinity for either sign of the divisor |
| Heatmap.New | src/heatmap.py:7-22 | a zero interval raises `ZeroDivisionError` and a negative slot count raises `ValueError`; construction succeeds in every other case, with one row per host and `history*60 // interval` empty slots, cursor 0 |
| Heatmap.DefaultDay | src/heatmap.py:7 | with the default 5-minute interval and 24 hours of history, construction succeeds with 288 empty slots and cursor 0 |
| Heatmap.Requests | src/heatmap.py:26-27 | when the grid has at least one slot, each host is pinged once, in host order, as `ping -c 2 -W 2 <host>`, the numbers written exactly as `str(2)` |
| Heatmap.Measure | src/heatmap.py:24-31 | a successful ping overwrites its host's cell in the cursor column, a failed one leaves it, other columns are unchanged, and the cursor advances modulo the slot count; with zero slots, the exception depends on whether any ping succeeded |
| Heatmap.MeasureProbes | src/heatmap.py:26-31 | a host whose ping exited with an error keeps its whole row |
| Heatmap.MeasureAll | src/heatmap.py:24-31 | repeated measuring keeps the grid's shape and its host list |
| Heatmap.CursorAfterRounds | src/heatmap.py:31 | after `k` calls, the cursor has moved `k` slots modulo the slot count |
| Heatmap.CellsAfterRounds | src/heatmap.py:26-31 | every cell holds the latest successful sample written to its slot, or its earlier content when none was written |
| Heatmap.LatestSampleIsLastWrite | src/heatmap.py:26-31 | the latest sample is the one from the last round that wrote that cell, or the earlier content when no round did |
| Heatmap.HourOfMinutes | tests/test_heatmap.py:11-27 | one hour in one-minute intervals gives 60 empty slots and cursor 0 |
| Heatmap.SixtyFiveMeasures | tests/test_heatmap.py:75-83 | 65 calls on 60 slots leave the cursor at 5 |
| Heatmap.FirstMeasure | tests/test_heatmap.py:29-53 | the first call writes each host's result in column 0, a failed ping leaves the cell empty, and the cursor moves to 1 |
| InterfaceStats.DefaultInterface | src/interface_stats.py:16-22 | the result is the first interface in table order that is up and not `lo`, and exists exactly when such an interface exists; otherwise `RuntimeError` |
| InterfaceStats.GetStats | src/interface_stats.py:24-29 | the interface's counters when the table has it, `ValueError` exactly when it does not |
| InterfaceStats.New | src/interface_stats.py:6-14 | a non-empty name is watched as given and fails only with `ValueError`; `None` or `""` watches exactly the default interface; `RuntimeError` happens exactly when no name is given and no interface is usable, and a chosen interface missing from the counters gives `ValueError`; the first reading and clock value become the baseline |
| InterfaceStats.DefaultConstruction | tests/test_interface_stats.py:10-28 | built without a name on the test's table, the collector watches `eth0`, not `lo`, with its counters as the baseline |
| InterfaceStats.Rate | src/interface_stats.py:43-46 | a rate times the elapsed time is the counter's change |
| InterfaceStats.GetRates | src/interface_stats.py:31-52 | a missing interface gives `ValueError` and zero elapsed time gives `ZeroDivisionError`, with the collector unchanged; otherwise each rate times the elapsed time is its counter's change, and the new reading and time become the baseline |
| InterfaceStats.GetTotals | src/interface_stats.py:54-66 | the cumulative counters of the watched interface, or `ValueError` when it has vanished |
| InterfaceStats.RatesTelescope | src/interface_stats.py:40-52 | over two successive calls, rate × interval summed gives the total change between the first baseline and the second reading |
| InterfaceStats.CounterResetIsNegative | src/interface_stats.py:42-47 | a counter that went backwards over a positive interval gives a negative rate; nothing clamps it |
| InterfaceStats.TotalsIgnoreBaseline | src/interface_stats.py:54-66 | the totals do not depend on the rate baseline |
| InterfaceStats.DefaultSkipsLoopback | tests/test_interface_stats.py:10-28 | with `lo` up, `eth0` up and `wlan0` down, `eth0` is chosen |
| InterfaceStats.NoActiveInterface | tests/test_interface_stats.py:83-92 | with only `lo` up, construction without a name raises `RuntimeError` |
| InterfaceStats.ReferenceRates | tests/test_interface_stats.py:30-62 | readings one second apart give rates of 1000, 2000, 5 and 10 per second |
| MonitorLoop.KeepLast | src/main.py:39 | `s[-n:]` is the suffix of `s` of length `min(len(s), n)` |
| MonitorLoop.Step | src/main.py:33-39 | the history never exceeds 3600 entries; below capacity each list gains exactly the new value; aligned lists stay aligned and each is the last 3600 of itself plus the new value |
| MonitorLoop.Run | src/main.py:25-41 | iterations keep the lists aligned and bounded by 3600 |
| MonitorLoop.KeepLastAppend | src/main.py:37-39 | trimming after every append keeps what one trim at the end would keep |
| MonitorLoop.RunKeepsNewest | src/main.py:33-39 | from an empty history, the retained rows are exactly the newest 3600 (all of them when fewer), in arrival order, and nothing is added to the download list |
| MonitorLoop.RunBelowCapacity | src/main.py:33-39 | up to 3600 iterations keep every row, in order |
| MonitorLoop.PingRequest | src/main.py:30 | each iteration runs `ping -c 4 -W 2 8.8.8.8`, the count and timeout written exactly as `str(4)` and `str(2)` |
| MonitorLoop.Tick | src/main.py:28-39 | an exception from `get_rates` ends the loop with nothing appended; otherwise, at any history size, each list becomes the newest 3600 of itself plus the new entry, the lists stay aligned, the new speed times 1,000,000 is the received rate, `download_speeds` is untouched while it holds at most 3600 entries, and the rate baseline moves on |
| MonitorLoop.ThreeTicks | src/main.py:30-34 | pings giving 12.0, nothing and 9.5 are recorded as exactly those three entries, in order |

## Left out

- Process execution: `subprocess.run`, its pipes, `text=True` decoding and stderr are not modelled. A completed run is its exit status and standard output; any exception raised while running is the single outcome `Raised`.
- Python's `float()`: the parameter `parseFloat` stands in for it. A `ValueError` from it, which `ping` catches, is `parseFloat` returning `None`.
- `psutil.net_if_stats` and `psutil.net_io_counters`: these are inputs. The status table is a sequence in the dictionary's iteration order, and the counter table is a map.
- `time.time()` and `datetime.now()`: these are `real` inputs.
- InterfaceStats.GetRates: the rates are exact real quotients, so the rounding of floating-point division is not modelled.
- InterfaceStats.Rate: exact real quotient; floating-point rounding is not modelled.
- Heatmap.Measure: NaN cells of the numpy `float64` array are `None`. A latency is stored as the real `ping` returned, not rounded to `float64`.
- Ping.Argv: only integer counts and timeouts are modelled. `str()` of other argument types is not.
- Traceroute.Argv: only integer hop limits and timeouts are modelled.
- InterfaceStats.New: Python's `or` is modelled for `None` and strings only.
- `NetworkHeatmap.plot`, the Dash layout and callbacks, the `__main__` blocks, `speed_test.py` and `speed_measure.py`: presentation or outside the sampling core.
- Threading and `time.sleep` in `main.py`: the loop is modelled as a sequence of iterations. Concurrent readers of `network_data` are not modelled.

=== FILE: base.dfy ===
/**
  Shared vocabulary of the sampling core: Python's `None`-or-value results, the
  exceptions the core can raise, and what a `subprocess.run` call hands back.
 */
module Base {

  /** A value or Python's `None`. */
  datatype Option<+T> = None | Some(value: T)

  /** The Python exceptions the modelled code raises (and does not catch itself). */
  datatype PyError =
    | ZeroDivisionError   // `//`, `/` or `%` by zero
    | IndexError          // subscript past the end of a list or an array axis
    | ValueError          // lookup of an unknown interface, negative array dimension
    | RuntimeError        // no usable network interface

  /** Either the value an operation returns or the exception it raises. */
  datatype Result<+T> = Success(value: T) | Failure(error: PyError)

  /**
    What `subprocess.run` yields to its caller: the finished process's exit
    status and captured standard output, or an exception raised before any
    result existed (the executable is missing, say).
   */
  datatype RunOutcome = Completed(returnCode: int, stdout: string) | Raised
}

=== FILE: command.dfy ===
/**
  The command-line shape both probes share: a program, two numeric options
  rendered with `str()`, and the target host last.
 */
module Command {
  import opened Base
  import opened Text

  /** `[program, countFlag, str(count), timeoutFlag, str(timeout), host]`. */
  function Argv(program: string, countFlag: string, count: int, timeoutFlag: string, timeout: int, host: string)
    : (argv: seq<string>)
    ensures |argv| == 6
    ensures argv[0] == program && argv[1] == countFlag && argv[3] == timeoutFlag && argv[5] == host
    ensures ParseInt(argv[2]) == Some(count) && ParseInt(argv[4]) == Some(timeout)
  {
    IntToStringRoundTrip(count);
    IntToStringRoundTrip(timeout);
    [program, countFlag, IntToString(count), timeoutFlag, IntToString(timeout), host]
  }
}

=== FILE: heatmap.dfy ===
/**
  The latency heatmap: a hosts x timepoints grid of latencies with one shared
  write cursor. Every `measure` pings each host once, writes the successful
  results into the cursor's column, and moves the cursor one slot on, wrapping
  at the end so that the oldest column is overwritten next. The ping results
  are inputs here, one per host in host order; `Requests` gives the command
  line each of them comes from.
 */
module Heatmap {
  import opened Base
  import Ping
  import Text

  /** Python's `a // b`: the quotient rounded toward negative infinity. */
  function FloorDiv(a: int, b: int): (q: int)
    requires b != 0
    ensures b > 0 ==> b * q <= a < b * q + b
    ensures b < 0 ==> b * q + b < a <= b * q
  {
    if b > 0 then a / b
    else
      var q := (-a) / (-b);
      assert (-b) * q <= -a < (-b) * q + (-b);
      q
  }

  /** `interval_minutes` when the caller gives none. */
  const DefaultIntervalMinutes := 5

  /** `history_hours` when the caller gives none. */
  const DefaultHistoryHours := 24

  /** The sample count `measure` asks `ping` for, per host. */
  const SamplesPerHost := 2

  /** One grid cell: a latency in milliseconds, or `None` for numpy's NaN (no sample). */
  type Cell = Option<real>

  datatype NetworkHeatmap = NetworkHeatmap(
    hosts: seq<string>,
    interval: int,
    historyHours: int,
    timepoints: int,
    data: seq<seq<Cell>>,
    currentIndex: int)
  {
    /** The grid has one row per host and one column per timepoint; the cursor is a column. */
    predicate Valid()
    {
      && 0 <= timepoints
      && |data| == |hosts|
      && (forall i :: 0 <= i < |data| ==> |data[i]| == timepoints)
      && 0 <= currentIndex
      && (currentIndex < timepoints || currentIndex == 0)
    }
  }

  /**
    `NetworkHeatmap(hosts, interval_minutes, history_hours)`: as many slots as
    whole intervals fit in the history, every cell empty, cursor at slot 0.
    A zero interval raises `ZeroDivisionError`; a negative slot count makes
    numpy raise `ValueError`.
   */
  function New(hosts: seq<string>, intervalMinutes: int, historyHours: int): (r: Result<NetworkHeatmap>)
    ensures intervalMinutes == 0 <==> r == Failure(ZeroDivisionError)
    ensures r == Failure(ValueError) <==>
              intervalMinutes != 0 && FloorDiv(historyHours * 60, intervalMinutes) < 0
    ensures r.Success? <==> intervalMinutes != 0 && FloorDiv(historyHours * 60, intervalMinutes) >= 0
    ensures r.Success? ==>
      var h := r.value;
      && h.Valid()
      && h.hosts == hosts && h.interval == intervalMinutes && h.historyHours == historyHours
      && h.timepoints == FloorDiv(historyHours * 60, intervalMinutes)
      && h.currentIndex == 0
      && forall i, j :: 0 <= i < |hosts| && 0 <= j < h.timepoints ==> h.data[i][j] == None
  {
    if intervalMinutes == 0 then Failure(ZeroDivisionError)
    else
      var timepoints := FloorDiv(historyHours * 60, intervalMinutes);
      if timepoints < 0 then Failure(ValueError)
      else
        var row: seq<Cell> := seq(timepoints, _ => None);
        Success(NetworkHeatmap(hosts, intervalMinutes, historyHours, timepoints,
                               seq(|hosts|, _ => row), 0))
  }

  /** The `ping` command line behind each host's sample, in the order they run. */
  function Requests(h: NetworkHeatmap): (argvs: seq<seq<string>>)
    ensures |argvs| == |h.hosts|
    ensures forall i :: 0 <= i < |argvs| ==>
      && |argvs[i]| == 6 && argvs[i][0] == "ping" && argvs[i][5] == h.hosts[i]
      && argvs[i][1] == "-c" && argvs[i][3] == "-W"
      && Text.ParseInt(argvs[i][2]) == Some(SamplesPerHost)
      && Text.ParseInt(argvs[i][4]) == Some(Ping.DefaultTimeout)
  {
    seq(|h.hosts|, i requires 0 <= i < |h.hosts| => Ping.Argv(h.hosts[i], SamplesPerHost, Ping.DefaultTimeout, false))
  }

  /**
    `measure()` given `latencies[i]`, the result of pinging `hosts[i]`. A
    successful ping overwrites its host's cell in the cursor's column; a failed
    one leaves that cell as it was (empty, or a sample from a lap ago). Then the
    cursor moves on modulo the slot count. With no slots at all, the first
    successful write raises `IndexError`, or else the modulo raises
    `ZeroDivisionError`.
   */
  function Measure(h: NetworkHeatmap, latencies: seq<Option<real>>): (r: Result<NetworkHeatmap>)
    requires h.Valid() && |latencies| == |h.hosts|
    ensures r.Success? <==> h.timepoints > 0
    ensures h.timepoints == 0 && (exists i :: 0 <= i < |latencies| && latencies[i].Some?) ==>
              r == Failure(IndexError)
    ensures h.timepoints == 0 && (forall i :: 0 <= i < |latencies| ==> latencies[i].None?) ==>
              r == Failure(ZeroDivisionError)
    ensures r.Success? ==>
      var h' := r.value;
      && h'.Valid()
      && h'.hosts == h.hosts && h'.interval == h.interval && h'.historyHours == h.historyHours
      && h'.timepoints == h.timepoints
      && h'.currentIndex == (h.currentIndex + 1) % h.timepoints
      && (forall i, j :: 0 <= i < |h.hosts| && 0 <= j < h.timepoints && j != h.currentIndex ==>
            h'.data[i][j] == h.data[i][j])
      && (forall i :: 0 <= i < |h.hosts| && latencies[i].Some? ==>
            h'.data[i][h.currentIndex] == latencies[i])
      && (forall i :: 0 <= i < |h.hosts| && latencies[i].None? ==>
            h'.data[i][h.currentIndex] == h.data[i][h.currentIndex])
  {
    if h.timepoints == 0 then
      if exists i :: 0 <= i < |latencies| && latencies[i].Some? then Failure(IndexError)
      else Failure(ZeroDivisionError)
    else
      var col := h.currentIndex;
      var data := seq(|h.data|, i requires 0 <= i < |h.data| =>
        if latencies[i].Some? then h.data[i][col := latencies[i]] else h.data[i]);
      Success(h.(data := data, currentIndex := (col + 1) % h.timepoints))
  }

  /**
    `measure()` from the raw probe outcomes: host `i`'s latency is what
    `ping(hosts[i], count=2)` makes of `outcomes[i]`. A probe that exits with
    an error leaves its host's cell untouched.
   */
  function MeasureProbes(h: NetworkHeatmap, outcomes: seq<RunOutcome>, parseFloat: string -> Option<real>)
    : (r: Result<NetworkHeatmap>)
    requires h.Valid() && |outcomes| == |h.hosts|
    ensures r.Success? <==> h.timepoints > 0
    ensures r.Success? ==>
      && r.value.Valid() && r.value.hosts == h.hosts
      && r.value.currentIndex == (h.currentIndex + 1) % h.timepoints
      && forall i :: 0 <= i < |h.hosts| && (outcomes[i].Raised? || outcomes[i].returnCode != 0) ==>
           r.value.data[i] == h.data[i]
  {
    var latencies := seq(|outcomes|, i requires 0 <= i < |outcomes| => Ping.Parse(outcomes[i], parseFloat));
    var r := Measure(h, latencies);
    if r.Success? then
      assert forall i :: 0 <= i < |h.hosts| && (outcomes[i].Raised? || outcomes[i].returnCode != 0) ==>
          r.value.data[i] == h.data[i] by {
        forall i | 0 <= i < |h.hosts| && (outcomes[i].Raised? || outcomes[i].returnCode != 0)
          ensures r.value.data[i] == h.data[i]
        {
          assert latencies[i] == None;
          UnwrittenRowKept(h, latencies, i);
        }
      }
      r
    else r
  }

  /** A host whose ping gave nothing keeps its whole row through `measure()`. */
  lemma UnwrittenRowKept(h: NetworkHeatmap, latencies: seq<Option<real>>, i: nat)
    requires h.Valid() && |latencies| == |h.hosts| && h.timepoints > 0
    requires i < |h.hosts| && latencies[i].None?
    ensures Measure(h, latencies).Success?
    ensures Measure(h, latencies).value.data[i] == h.data[i]
  {
    var after := Measure(h, latencies).value;
    assert |after.data[i]| == |h.data[i]|;
    forall j | 0 <= j < |h.data[i]|
      ensures after.data[i][j] == h.data[i][j]
    {
    }
  }

  /** Every round holds one ping result per host. */
  predicate RoundsFit(h: NetworkHeatmap, rounds: seq<seq<Option<real>>>)
  {
    forall k :: 0 <= k < |rounds| ==> |rounds[k]| == |h.hosts|
  }

  /** `measure()` called once per round, in order; the first exception stops the run. */
  function MeasureAll(h: NetworkHeatmap, rounds: seq<seq<Option<real>>>): (r: Result<NetworkHeatmap>)
    requires h.Valid() && RoundsFit(h, rounds)
    ensures r.Success? ==>
      r.value.Valid() && r.value.hosts == h.hosts && r.value.timepoints == h.timepoints
    decreases |rounds|
  {
    if rounds == [] then Success(h)
    else
      var last := |rounds| - 1;
      match MeasureAll(h, rounds[..last])
      case Failure(e) => Failure(e)
      case Success(h') => Measure(h', rounds[last])
  }

  /**
    What host `i`'s cell in slot `slot` holds after `rounds`, starting with the
    cursor at `start`: the latest successful sample any round wrote there, or
    `prior` when none did.
   */
  function LatestSample(rounds: seq<seq<Option<real>>>, i: nat, slot: int, start: int, timepoints: int,
                        prior: Cell): Cell
    requires timepoints > 0
    requires forall k :: 0 <= k < |rounds| ==> i < |rounds[k]|
    decreases |rounds|
  {
    if rounds == [] then prior
    else
      var last := |rounds| - 1;
      if (start + last) % timepoints == slot && rounds[last][i].Some? then rounds[last][i]
      else LatestSample(rounds[..last], i, slot, start, timepoints, prior)
  }

  /** Euclidean division has one remainder: `n * q + r` leaves `r` when `0 <= r < n`. */
  lemma ModUnique(x: int, n: int, q: int, r: int)
    requires n > 0 && 0 <= r < n && x == n * q + r
    ensures x % n == r
  {
    var q', r' := x / n, x % n;
    assert n * q' + r' == n * q + r;
    assert n * (q - q') == n * q - n * q';
    if q > q' {
      MulAtLeast(n, q - q');
    } else if q < q' {
      MulAtLeast(n, q' - q);
    }
  }

  lemma MulAtLeast(n: int, d: int)
    requires n > 0 && d >= 1
    ensures n * d >= n
  {
    assert n * d == n * (d - 1) + n;
  }

  /** Moving the cursor one slot after reducing equals reducing after the move. */
  lemma ModStep(x: int, n: int)
    requires n > 0
    ensures (x % n + 1) % n == (x + 1) % n
  {
    var q, r := x / n, x % n;
    if r + 1 < n {
      ModUnique(x + 1, n, q, r + 1);
      ModUnique(r + 1, n, 0, r + 1);
    } else {
      ModUnique(x + 1, n, q + 1, 0);
      ModUnique(r + 1, n, 1, 0);
    }
  }

  /** After `k` calls the cursor has moved `k` slots, modulo the slot count. */
  lemma {:induction false} CursorAfterRounds(h: NetworkHeatmap, rounds: seq<seq<Option<real>>>)
    requires h.Valid() && RoundsFit(h, rounds) && h.timepoints > 0
    ensures MeasureAll(h, rounds).Success?
    ensures MeasureAll(h, rounds).value.currentIndex == (h.currentIndex + |rounds|) % h.timepoints
    decreases |rounds|
  {
    if rounds == [] {
      ModUnique(h.currentIndex, h.timepoints, 0, h.currentIndex);
    } else {
      var last := |rounds| - 1;
      var prefix := rounds[..last];
      assert RoundsFit(h, prefix);
      CursorAfterRounds(h, prefix);
      var before := MeasureAll(h, prefix).value;
      var n, x := h.timepoints, h.currentIndex + last;
      assert before.currentIndex == x % n;
      assert |rounds[last]| == |before.hosts|;
      var after := Measure(before, rounds[last]);
      assert MeasureAll(h, rounds) == after;
      assert after.value.currentIndex == (x % n + 1) % n;
      ModStep(x, n);
    }
  }

  /**
    Every cell holds the latest successful sample written to its slot, or what
    it held before the first round when no round wrote one there: a failed ping
    never erases anything.
   */
  lemma {:induction false} CellsAfterRounds(h: NetworkHeatmap, rounds: seq<seq<Option<real>>>)
    requires h.Valid() && RoundsFit(h, rounds) && h.timepoints > 0
    ensures MeasureAll(h, rounds).Success?
    ensures forall i, j :: 0 <= i < |h.hosts| && 0 <= j < h.timepoints ==>
      MeasureAll(h, rounds).value.data[i][j]
        == LatestSample(rounds, i, j, h.currentIndex, h.timepoints, h.data[i][j])
    decreases |rounds|
  {
    CursorAfterRounds(h, rounds);
    if rounds != [] {
      var last := |rounds| - 1;
      var prefix := rounds[..last];
      CellsAfterRounds(h, prefix);
      CursorAfterRounds(h, prefix);
      var before := MeasureAll(h, prefix).value;
      assert (h.currentIndex + last) % h.timepoints == before.currentIndex;
      forall i, j | 0 <= i < |h.hosts| && 0 <= j < h.timepoints
        ensures MeasureAll(h, rounds).value.data[i][j]
                == LatestSample(rounds, i, j, h.currentIndex, h.timepoints, h.data[i][j])
      {
        assert rounds[..last] == prefix;
      }
    }
  }

  /** Round `k` wrote host `i`'s cell in slot `slot`. */
  predicate WroteAt(rounds: seq<seq<Option<real>>>, k: int, i: nat, slot: int, start: int, timepoints: int)
    requires timepoints > 0
  {
    0 <= k < |rounds| && i < |rounds[k]| && (start + k) % timepoints == slot && rounds[k][i].Some?
  }

  /**
    `LatestSample` read back: with no write to the slot it is `prior`, and
    otherwise it is the sample of the last round that wrote there.
   */
  lemma {:induction false} LatestSampleIsLastWrite(rounds: seq<seq<Option<real>>>, i: nat, slot: int, start: int,
                                                   timepoints: int, prior: Cell, k: int)
    requires timepoints > 0
    requires forall m :: 0 <= m < |rounds| ==> i < |rounds[m]|
    ensures (forall m :: !WroteAt(rounds, m, i, slot, start, timepoints)) ==>
              LatestSample(rounds, i, slot, start, timepoints, prior) == prior
    ensures WroteAt(rounds, k, i, slot, start, timepoints)
            && (forall m :: k < m ==> !WroteAt(rounds, m, i, slot, start, timepoints)) ==>
              LatestSample(rounds, i, slot, start, timepoints, prior) == rounds[k][i]
    decreases |rounds|
  {
    if rounds != [] {
      var last := |rounds| - 1;
      var prefix := rounds[..last];
      if !WroteAt(rounds, last, i, slot, start, timepoints) {
        LatestSampleIsLastWrite(prefix, i, slot, start, timepoints, prior, k);
        forall m
          ensures WroteAt(prefix, m, i, slot, start, timepoints) == WroteAt(rounds, m, i, slot, start, timepoints)
        {
          if 0 <= m < last {
            assert prefix[m] == rounds[m];
          }
        }
      }
    }
  }

  /** The constructor's defaults: a day of history in five-minute slots is 288 empty columns. */
  lemma DefaultDay(hosts: seq<string>)
    ensures New(hosts, DefaultIntervalMinutes, DefaultHistoryHours).Success?
    ensures var h := New(hosts, DefaultIntervalMinutes, DefaultHistoryHours).value;
            h.timepoints == 288 && h.currentIndex == 0 && |h.data| == |hosts|
            && forall i, j :: 0 <= i < |hosts| && 0 <= j < 288 ==> h.data[i][j] == None
  {
  }

  /** The unit-test heatmap: one hour in one-minute slots is 60 empty columns. */
  lemma HourOfMinutes(hosts: seq<string>)
    ensures New(hosts, 1, 1).Success?
    ensures var h := New(hosts, 1, 1).value;
            h.timepoints == 60 && h.currentIndex == 0 && |h.data| == |hosts|
            && forall i, j :: 0 <= i < |hosts| && 0 <= j < 60 ==> h.data[i][j] == None
  {
  }

  /** Sixty-five calls on sixty slots wrap around once and leave the cursor at slot 5. */
  lemma SixtyFiveMeasures(hosts: seq<string>, rounds: seq<seq<Option<real>>>)
    requires |rounds| == 65 && forall k :: 0 <= k < 65 ==> |rounds[k]| == |hosts|
    ensures New(hosts, 1, 1).Success?
    ensures var h := New(hosts, 1, 1).value;
            MeasureAll(h, rounds).Success? && MeasureAll(h, rounds).value.currentIndex == 5
  {
    var h := New(hosts, 1, 1).value;
    assert RoundsFit(h, rounds);
    CursorAfterRounds(h, rounds);
  }

  /**
    One call on the unit-test heatmap: each successful host lands in column 0,
    a failed host's cell stays empty, and the cursor moves to 1.
   */
  lemma FirstMeasure(hosts: seq<string>, first: Option<real>, second: Option<real>)
    requires |hosts| == 2
    ensures New(hosts, 1, 1).Success?
    ensures var r := Measure(New(hosts, 1, 1).value, [first, second]);
            && r.Success? && r.value.currentIndex == 1
            && r.value.data[0][0] == first && r.value.data[1][0] == second
  {
  }
}

=== FILE: interface_stats.dfy ===
/**
  Per-interface traffic statistics: choosing the interface, reading its
  cumulative counters, and turning two successive readings into per-second
  rates. `psutil`'s interface table and counter table and the wall clock are
  inputs; rates are exact real quotients.
 */
module InterfaceStats {
  import opened Base
  import Text

  /** The cumulative counters `psutil` reports for one interface. */
  datatype Counters = Counters(bytesSent: nat, bytesRecv: nat, packetsSent: nat, packetsRecv: nat)

  /** One entry of the interface status table, in the table's order. */
  datatype IfStatus = IfStatus(name: string, isUp: bool)

  /** The collector's state: the interface it watches and its last reading. */
  datatype Collector = Collector(interfaceName: string, lastStats: Counters, lastTime: real)

  /** Per-second rates of the four counters. */
  datatype Rates = Rates(bytesSent: real, bytesRecv: real, packetsSent: real, packetsRecv: real)

  /** What `get_rates` returns together with the collector's new state. */
  datatype Sampled = Sampled(rates: Rates, next: Collector)

  /** The loopback interface, never chosen by default. */
  const Loopback := "lo"

  predicate Usable(s: IfStatus)
  {
    s.isUp && s.name != Loopback
  }

  /**
    `_get_default_interface`: the first interface, in table order, that is up
    and is not the loopback; `RuntimeError` when there is none.
   */
  function DefaultInterface(ifs: seq<IfStatus>): (r: Result<string>)
    ensures r.Success? <==> exists k :: 0 <= k < |ifs| && Usable(ifs[k])
    ensures r.Failure? ==> r.error == RuntimeError
    ensures r.Success? ==>
      exists k :: && 0 <= k < |ifs| && Usable(ifs[k]) && ifs[k].name == r.value
                  && forall j :: 0 <= j < k ==> !Usable(ifs[j])
  {
    var k := Text.FirstWhere(ifs, Usable);
    if k == |ifs| then Failure(RuntimeError) else Success(ifs[k].name)
  }

  /** `_get_stats`: the watched interface's counters; `ValueError` when the table lacks it. */
  function GetStats(name: string, counters: map<string, Counters>): (r: Result<Counters>)
    ensures r.Success? <==> name in counters
    ensures r.Success? ==> r.value == counters[name]
    ensures r.Failure? ==> r.error == ValueError
  {
    if name in counters then Success(counters[name]) else Failure(ValueError)
  }

  /**
    `InterfaceStats(interface_name)` at time `now`. A non-empty name is watched
    as given; `None` or the empty string (both false in Python) fall back to
    the default interface. The first reading becomes the baseline.
   */
  function New(requested: Option<string>, ifs: seq<IfStatus>, counters: map<string, Counters>, now: real)
    : (r: Result<Collector>)
    ensures requested.Some? && requested.value != "" ==>
      (r.Success? <==> requested.value in counters)
    ensures (requested.None? || requested.value == "") ==>
      (r.Success? <==> DefaultInterface(ifs).Success? && DefaultInterface(ifs).value in counters)
    ensures (requested.None? || requested.value == "") && DefaultInterface(ifs).Failure? ==>
      r == Failure(RuntimeError)
    ensures r.Failure? && r.error != RuntimeError ==> r.error == ValueError
    ensures requested.Some? && requested.value != "" && r.Failure? ==> r.error == ValueError
    ensures r.Failure? ==>
      (r.error == RuntimeError <==> (requested.None? || requested.value == "") && DefaultInterface(ifs).Failure?)
    ensures (requested.None? || requested.value == "") && r.Success? ==>
      r.value.interfaceName == DefaultInterface(ifs).value
    ensures r.Success? ==>
      && r.value.interfaceName in counters
      && r.value.lastStats == counters[r.value.interfaceName]
      && r.value.lastTime == now
      && (requested.Some? && requested.value != "" ==> r.value.interfaceName == requested.value)
  {
    var name :=
      if requested.Some? && requested.value != "" then Success(requested.value)
      else DefaultInterface(ifs);
    match name
    case Failure(e) => Failure(e)
    case Success(n) =>
      match GetStats(n, counters)
      case Failure(e) => Failure(e)
      case Success(stats) => Success(Collector(n, stats, now))
  }

  /** The change of one counter per second over `dt` seconds. */
  function Rate(current: nat, last: nat, dt: real): (rate: real)
    requires dt != 0.0
    ensures rate * dt == (current - last) as real
  {
    (current - last) as real / dt
  }

  /**
    `get_rates` at time `now`: the counters' changes since the last reading
    divided by the elapsed time, after which the new reading is the baseline.
    A vanished interface raises `ValueError` and no elapsed time raises
    `ZeroDivisionError`; both leave the collector as it was. A negative
    elapsed time or a counter that went backwards is divided through as it is.
   */
  function GetRates(c: Collector, counters: map<string, Counters>, now: real): (r: Result<Sampled>)
    ensures c.interfaceName !in counters ==> r == Failure(ValueError)
    ensures c.interfaceName in counters && now == c.lastTime ==> r == Failure(ZeroDivisionError)
    ensures r.Success? <==> c.interfaceName in counters && now != c.lastTime
    ensures r.Success? ==>
      var current, dt, rates := counters[c.interfaceName], now - c.lastTime, r.value.rates;
      && rates.bytesSent * dt == (current.bytesSent - c.lastStats.bytesSent) as real
      && rates.bytesRecv * dt == (current.bytesRecv - c.lastStats.bytesRecv) as real
      && rates.packetsSent * dt == (current.packetsSent - c.lastStats.packetsSent) as real
      && rates.packetsRecv * dt == (current.packetsRecv - c.lastStats.packetsRecv) as real
      && r.value.next == Collector(c.interfaceName, current, now)
  {
    match GetStats(c.interfaceName, counters)
    case Failure(e) => Failure(e)
    case Success(current) =>
      var dt := now - c.lastTime;
      if dt == 0.0 then Failure(ZeroDivisionError)
      else
        var rates := Rates(
          Rate(current.bytesSent, c.lastStats.bytesSent, dt),
          Rate(current.bytesRecv, c.lastStats.bytesRecv, dt),
          Rate(current.packetsSent, c.lastStats.packetsSent, dt),
          Rate(current.packetsRecv, c.lastStats.packetsRecv, dt));
        Success(Sampled(rates, Collector(c.interfaceName, current, now)))
  }

  /** `get_totals`: the watched interface's cumulative counters, read afresh. */
  function GetTotals(c: Collector, counters: map<string, Counters>): (r: Result<Counters>)
    ensures r.Success? <==> c.interfaceName in counters
    ensures r.Success? ==> r.value == counters[c.interfaceName]
    ensures r.Failure? ==> r.error == ValueError
  {
    GetStats(c.interfaceName, counters)
  }

  /**
    Two successive `get_rates` calls account for all traffic between the
    first baseline and the second reading: each rate times its interval,
    summed, is the total change of the counter.
   */
  lemma {:induction false} RatesTelescope(c: Collector, first: map<string, Counters>, t1: real,
                                          second: map<string, Counters>, t2: real)
    requires GetRates(c, first, t1).Success?
    requires GetRates(GetRates(c, first, t1).value.next, second, t2).Success?
    ensures var s1 := GetRates(c, first, t1).value;
            var s2 := GetRates(s1.next, second, t2).value;
            var total := second[c.interfaceName].bytesRecv - c.lastStats.bytesRecv;
            s1.rates.bytesRecv * (t1 - c.lastTime) + s2.rates.bytesRecv * (t2 - t1) == total as real
  {
    var s1 := GetRates(c, first, t1).value;
    var s2 := GetRates(s1.next, second, t2).value;
    assert s1.next.lastStats == first[c.interfaceName];
    assert s1.next.lastTime == t1;
    assert s1.rates.bytesRecv * (t1 - c.lastTime)
           == (first[c.interfaceName].bytesRecv - c.lastStats.bytesRecv) as real;
    assert s2.rates.bytesRecv * (t2 - t1)
           == (second[c.interfaceName].bytesRecv - first[c.interfaceName].bytesRecv) as real;
  }

  /**
    A counter that went backwards over a positive interval (a reset or a
    wrap) yields a negative rate: nothing clamps it.
   */
  lemma CounterResetIsNegative(c: Collector, counters: map<string, Counters>, now: real)
    requires now > c.lastTime && c.interfaceName in counters
    requires counters[c.interfaceName].bytesRecv < c.lastStats.bytesRecv
    ensures GetRates(c, counters, now).Success?
    ensures GetRates(c, counters, now).value.rates.bytesRecv < 0.0
  {
    var r := GetRates(c, counters, now).value.rates.bytesRecv;
    var dt := now - c.lastTime;
    assert r * dt < 0.0;
    SignOfProduct(r, dt);
  }

  lemma SignOfProduct(a: real, b: real)
    requires b > 0.0 && a * b < 0.0
    ensures a < 0.0
  {
  }

  /** The totals do not depend on the rate baseline. */
  lemma TotalsIgnoreBaseline(c: Collector, stats: Counters, time: real, counters: map<string, Counters>)
    ensures GetTotals(c.(lastStats := stats, lastTime := time), counters) == GetTotals(c, counters)
  {
  }

  /** The unit-test table: `lo` is skipped, `eth0` is up, `wlan0` is down. */
  lemma DefaultSkipsLoopback()
    ensures DefaultInterface([IfStatus("lo", true), IfStatus("eth0", true), IfStatus("wlan0", false)])
            == Success("eth0")
  {
    var ifs := [IfStatus("lo", true), IfStatus("eth0", true), IfStatus("wlan0", false)];
    assert !Usable(ifs[0]) && Usable(ifs[1]);
    Text.FirstWhereIs(ifs, Usable, 1);
  }

  /** Only the loopback is up: construction without a name raises `RuntimeError`. */
  lemma NoActiveInterface(counters: map<string, Counters>, now: real)
    ensures New(None, [IfStatus("lo", true), IfStatus("eth0", false), IfStatus("wlan0", false)], counters, now)
            == Failure(RuntimeError)
  {
    var ifs := [IfStatus("lo", true), IfStatus("eth0", false), IfStatus("wlan0", false)];
    assert !Usable(ifs[0]) && !Usable(ifs[1]) && !Usable(ifs[2]);
  }

  /** With no name given, the collector watches the default interface of the unit-test table. */
  lemma DefaultConstruction(stats: Counters, now: real)
    ensures var ifs := [IfStatus("lo", true), IfStatus("eth0", true), IfStatus("wlan0", false)];
            New(None, ifs, map["lo" := stats, "eth0" := stats], now) == Success(Collector("eth0", stats, now))
  {
    DefaultSkipsLoopback();
  }

  /** The unit-test readings one second apart give 1000, 2000, 5 and 10 per second. */
  lemma ReferenceRates(t: real)
    ensures var c := Collector("eth0", Counters(1000, 2000, 10, 20), t);
            var r := GetRates(c, map["eth0" := Counters(2000, 4000, 15, 30)], t + 1.0);
            r.Success? && r.value.rates == Rates(1000.0, 2000.0, 5.0, 10.0)
  {
  }
}

=== FILE: monitor_loop.dfy ===
/**
  The dashboard's background sampling loop: once a second it pings the
  reference host, reads the interface rates, appends one row to the shared
  history and trims every history list to the newest `MaxSamples` entries.
  The sleep and the thread are not modelled; each iteration's inputs (the
  clock reading, the ping outcome, the counter table) are parameters.
 */
module MonitorLoop {
  import opened Base
  import Ping
  import Text
  import InterfaceStats

  /** The most rows the history keeps. */
  const MaxSamples := 3600

  /** The host every iteration pings. */
  const ReferenceHost := "8.8.8.8"

  /** Bytes per second in one megabyte per second. */
  const BytesPerMegabyte := 1000000.0

  /**
    The `network_data` dictionary, one list per key. `downloadSpeeds` is
    trimmed with the others but nothing in this loop appends to it.
   */
  datatype NetworkData = NetworkData(
    timestamps: seq<real>,
    pingTimes: seq<Option<real>>,
    downloadSpeeds: seq<real>,
    interfaceSpeeds: seq<real>)
  {
    /** The three lists the loop appends to have one entry per iteration. */
    predicate Aligned()
    {
      |timestamps| == |pingTimes| == |interfaceSpeeds|
    }
  }

  /** What one iteration records. */
  datatype Row = Row(timestamp: real, pingTime: Option<real>, interfaceSpeed: real)

  /** Python's `s[-n:]`: the last `n` entries, or all of `s` when it is shorter. */
  function KeepLast<T>(s: seq<T>, n: nat): (r: seq<T>)
    requires n > 0
    ensures |r| == if |s| <= n then |s| else n
    ensures r == s[|s| - |r|..]
  {
    if |s| <= n then s else s[|s| - n..]
  }

  /**
    One iteration's bookkeeping (lines 33-39): append the row to the three
    lists, then, when the timestamps exceed `MaxSamples`, cut every list to its
    newest `MaxSamples` entries.
   */
  function Step(d: NetworkData, row: Row): (r: NetworkData)
    ensures |r.timestamps| <= MaxSamples
    ensures d.Aligned() ==> r.Aligned()
    ensures |d.timestamps| < MaxSamples ==>
      && r.timestamps == d.timestamps + [row.timestamp]
      && r.pingTimes == d.pingTimes + [row.pingTime]
      && r.interfaceSpeeds == d.interfaceSpeeds + [row.interfaceSpeed]
      && r.downloadSpeeds == d.downloadSpeeds
    ensures d.Aligned() ==>
      && r.timestamps == KeepLast(d.timestamps + [row.timestamp], MaxSamples)
      && r.pingTimes == KeepLast(d.pingTimes + [row.pingTime], MaxSamples)
      && r.interfaceSpeeds == KeepLast(d.interfaceSpeeds + [row.interfaceSpeed], MaxSamples)
    ensures |d.downloadSpeeds| <= MaxSamples ==> r.downloadSpeeds == d.downloadSpeeds
    ensures |r.timestamps| > 0 && r.timestamps[|r.timestamps| - 1] == row.timestamp
  {
    var appended := d.(timestamps := d.timestamps + [row.timestamp],
                       pingTimes := d.pingTimes + [row.pingTime],
                       interfaceSpeeds := d.interfaceSpeeds + [row.interfaceSpeed]);
    if |appended.timestamps| > MaxSamples then
      NetworkData(KeepLast(appended.timestamps, MaxSamples), KeepLast(appended.pingTimes, MaxSamples),
                  KeepLast(appended.downloadSpeeds, MaxSamples), KeepLast(appended.interfaceSpeeds, MaxSamples))
    else appended
  }

  /** Iterations in order, each adding one row. */
  function Run(d: NetworkData, rows: seq<Row>): (r: NetworkData)
    ensures d.Aligned() ==> r.Aligned()
    ensures rows != [] ==> |r.timestamps| <= MaxSamples
    decreases |rows|
  {
    if rows == [] then d else Step(Run(d, rows[..|rows| - 1]), rows[|rows| - 1])
  }

  function Timestamps(rows: seq<Row>): (ts: seq<real>)
    ensures |ts| == |rows| && forall k :: 0 <= k < |rows| ==> ts[k] == rows[k].timestamp
    decreases |rows|
  {
    if rows == [] then [] else Timestamps(rows[..|rows| - 1]) + [rows[|rows| - 1].timestamp]
  }

  function PingTimes(rows: seq<Row>): (ps: seq<Option<real>>)
    ensures |ps| == |rows| && forall k :: 0 <= k < |rows| ==> ps[k] == rows[k].pingTime
    decreases |rows|
  {
    if rows == [] then [] else PingTimes(rows[..|rows| - 1]) + [rows[|rows| - 1].pingTime]
  }

  function InterfaceSpeeds(rows: seq<Row>): (ss: seq<real>)
    ensures |ss| == |rows| && forall k :: 0 <= k < |rows| ==> ss[k] == rows[k].interfaceSpeed
    decreases |rows|
  {
    if rows == [] then [] else InterfaceSpeeds(rows[..|rows| - 1]) + [rows[|rows| - 1].interfaceSpeed]
  }

  /** Trimming after each append keeps what one trim at the end would keep. */
  lemma KeepLastAppend<T>(s: seq<T>, x: T, n: nat)
    requires n > 0
    ensures KeepLast(KeepLast(s, n) + [x], n) == KeepLast(s + [x], n)
  {
    if |s| > n {
      var t := s[|s| - n..];
      assert KeepLast(s, n) == t;
      assert KeepLast(t + [x], n) == (t + [x])[1..] == s[|s| - n + 1..] + [x];
      assert KeepLast(s + [x], n) == (s + [x])[|s| + 1 - n..] == s[|s| + 1 - n..] + [x];
    }
  }

  /**
    From an empty history, any number of iterations leaves exactly the newest
    `MaxSamples` rows (all of them while there are fewer), oldest first.
   */
  lemma {:induction false} RunKeepsNewest(rows: seq<Row>)
    ensures var r := Run(NetworkData([], [], [], []), rows);
            && r.timestamps == KeepLast(Timestamps(rows), MaxSamples)
            && r.pingTimes == KeepLast(PingTimes(rows), MaxSamples)
            && r.interfaceSpeeds == KeepLast(InterfaceSpeeds(rows), MaxSamples)
            && r.downloadSpeeds == []
    decreases |rows|
  {
    if rows != [] {
      var last := |rows| - 1;
      var prefix := rows[..last];
      RunKeepsNewest(prefix);
      var before := Run(NetworkData([], [], [], []), prefix);
      var row := rows[last];
      assert Run(NetworkData([], [], [], []), rows) == Step(before, row);
      assert before.Aligned();
      assert Timestamps(rows) == Timestamps(prefix) + [row.timestamp];
      assert PingTimes(rows) == PingTimes(prefix) + [row.pingTime];
      assert InterfaceSpeeds(rows) == InterfaceSpeeds(prefix) + [row.interfaceSpeed];
      KeepLastAppend(Timestamps(prefix), row.timestamp, MaxSamples);
      KeepLastAppend(PingTimes(prefix), row.pingTime, MaxSamples);
      KeepLastAppend(InterfaceSpeeds(prefix), row.interfaceSpeed, MaxSamples);
    }
  }

  /** The monitor's state across iterations: the history and the rate collector. */
  datatype Monitor = Monitor(data: NetworkData, stats: InterfaceStats.Collector)

  /** The command line of the iteration's ping: `ping(ReferenceHost)` with its defaults. */
  function PingRequest(): (argv: seq<string>)
    ensures |argv| == 6 && argv[0] == "ping" && argv[5] == ReferenceHost
    ensures argv[1] == "-c" && argv[3] == "-W"
    ensures Text.ParseInt(argv[2]) == Some(Ping.DefaultCount) && Text.ParseInt(argv[4]) == Some(Ping.DefaultTimeout)
  {
    Ping.Argv(ReferenceHost, Ping.DefaultCount, Ping.DefaultTimeout, false)
  }

  /**
    One whole iteration at clock reading `now`: the ping's result (absent on
    any failure), then `get_rates`, whose exception ends the loop before
    anything is appended; otherwise the received rate in megabytes per second
    is recorded with the ping result.
   */
  function Tick(m: Monitor, timestamp: real, ping: RunOutcome, parseFloat: string -> Option<real>,
                counters: map<string, InterfaceStats.Counters>, now: real): (r: Result<Monitor>)
    ensures r.Success? <==> InterfaceStats.GetRates(m.stats, counters, now).Success?
    ensures r.Failure? ==> r.error == InterfaceStats.GetRates(m.stats, counters, now).error
    ensures r.Success? && |m.data.timestamps| < MaxSamples ==>
      var d := r.value.data;
      && d.timestamps == m.data.timestamps + [timestamp]
      && d.pingTimes == m.data.pingTimes + [Ping.Parse(ping, parseFloat)]
      && |d.interfaceSpeeds| == |m.data.interfaceSpeeds| + 1
      && d.interfaceSpeeds[|m.data.interfaceSpeeds|] * BytesPerMegabyte
         == InterfaceStats.GetRates(m.stats, counters, now).value.rates.bytesRecv
    ensures r.Success? && m.data.Aligned() ==>
      var d, received := r.value.data, InterfaceStats.GetRates(m.stats, counters, now).value.rates.bytesRecv;
      && d.Aligned()
      && d.timestamps == KeepLast(m.data.timestamps + [timestamp], MaxSamples)
      && d.pingTimes == KeepLast(m.data.pingTimes + [Ping.Parse(ping, parseFloat)], MaxSamples)
      && d.interfaceSpeeds == KeepLast(m.data.interfaceSpeeds + [received / BytesPerMegabyte], MaxSamples)
      && d.interfaceSpeeds[|d.interfaceSpeeds| - 1] * BytesPerMegabyte == received
    ensures r.Success? && |m.data.downloadSpeeds| <= MaxSamples ==> r.value.data.downloadSpeeds == m.data.downloadSpeeds
    ensures r.Success? ==> r.value.stats == InterfaceStats.GetRates(m.stats, counters, now).value.next
  {
    var pingTime := Ping.Parse(ping, parseFloat);
    match InterfaceStats.GetRates(m.stats, counters, now)
    case Failure(e) => Failure(e)
    case Success(sampled) =>
      var row := Row(timestamp, pingTime, sampled.rates.bytesRecv / BytesPerMegabyte);
      Success(Monitor(Step(m.data, row), sampled.next))
  }

  /** Below the capacity nothing is dropped: the history is every row, in order. */
  lemma RunBelowCapacity(rows: seq<Row>)
    requires |rows| <= MaxSamples
    ensures var r := Run(NetworkData([], [], [], []), rows);
            && r.timestamps == Timestamps(rows)
            && r.pingTimes == PingTimes(rows)
            && r.interfaceSpeeds == InterfaceSpeeds(rows)
  {
    RunKeepsNewest(rows);
  }

  /**
    Three iterations whose pings give 12.0, nothing, and 9.5 record exactly
    that, in order. The rows are a parameter rather than a literal because
    unfolding the run over literal rows is far costlier for the solver.
   */
  lemma ThreeTicks(rows: seq<Row>)
    requires |rows| == 3
    requires rows[0].pingTime == Some(12.0) && rows[1].pingTime == None && rows[2].pingTime == Some(9.5)
    ensures Run(NetworkData([], [], [], []), rows).pingTimes == [Some(12.0), None, Some(9.5)]
  {
    RunBelowCapacity(rows);
    PingTimesOfThree(rows);
  }

  lemma PingTimesOfThree(rows: seq<Row>)
    requires |rows| == 3
    ensures PingTimes(rows) == [rows[0].pingTime, rows[1].pingTime, rows[2].pingTime]
  {
  }
}

=== FILE: ping.dfy ===
/**
  The reachability probe: the command line `ping` is run with, and how its
  exit status and standard output become an average round-trip time or `None`.
  Running the process is not modelled; its outcome is an input, and Python's
  `float()` is the abstract partial parser `parseFloat`.
 */
module Ping {
  import opened Base
  import opened Text
  import Command

  /** Default sample count and per-reply timeout in seconds of `ping(host)`. */
  const DefaultCount := 4
  const DefaultTimeout := 2

  /** The substring that singles out the summary statistics line. */
  const SummaryMarker := "avg"

  /** The command line: `ping`/`ping6 -c <count> -W <timeout> <host>`. */
  function Argv(host: string, count: int, timeout: int, ipv6: bool): (argv: seq<string>)
    ensures |argv| == 6
    ensures argv[0] == (if ipv6 then "ping6" else "ping")
    ensures argv[1] == "-c" && argv[3] == "-W" && argv[5] == host
    ensures ParseInt(argv[2]) == Some(count) && ParseInt(argv[4]) == Some(timeout)
  {
    Command.Argv(if ipv6 then "ping6" else "ping", "-c", count, "-W", timeout, host)
  }

  predicate IsSummaryLine(line: string)
  {
    Contains(line, SummaryMarker)
  }

  /**
    The average of one summary line: field 4 of `line.split('/')` read by
    `float()`; a line with too few fields raises `IndexError`, which `ping`
    turns into `None`.
   */
  function AverageField(line: string, parseFloat: string -> Option<real>): (r: Option<real>)
    ensures multiset(line)['/'] < 4 ==> r == None
  {
    SplitCount(line, '/');
    var fields := Split(line, '/');
    if |fields| < 5 then None else parseFloat(fields[4])
  }

  /** The average read from the first summary line of `lines`, if any. */
  function AverageOfLines(lines: seq<string>, parseFloat: string -> Option<real>): (r: Option<real>)
    ensures (forall k :: 0 <= k < |lines| ==> !IsSummaryLine(lines[k])) ==> r == None
    ensures r.Some? ==>
      exists k :: && 0 <= k < |lines|
                  && IsSummaryLine(lines[k])
                  && (forall j :: 0 <= j < k ==> !IsSummaryLine(lines[j]))
                  && r == AverageField(lines[k], parseFloat)
  {
    var k := FirstWhere(lines, IsSummaryLine);
    if k == |lines| then None else AverageField(lines[k], parseFloat)
  }

  /** `ping(host, ...)` given what running the command produced. */
  function Parse(outcome: RunOutcome, parseFloat: string -> Option<real>): (r: Option<real>)
    ensures outcome.Raised? ==> r == None
    ensures outcome.Completed? && outcome.returnCode != 0 ==> r == None
    ensures r.Some? ==> exists line :: line in SplitLines(outcome.stdout) && IsSummaryLine(line)
  {
    match outcome
    case Raised => None
    case Completed(returnCode, stdout) =>
      if returnCode == 0 then AverageOfLines(SplitLines(stdout), parseFloat) else None
  }

  /**
    On a clean exit, the average comes from the first printed line that
    mentions `avg`, and is absent when no line does.
   */
  lemma ParseOfPrintedOutput(lines: seq<string>, parseFloat: string -> Option<real>)
    requires forall k :: 0 <= k < |lines| ==> NoLineBreak(lines[k])
    ensures Parse(Completed(0, JoinLines(lines)), parseFloat) == AverageOfLines(lines, parseFloat)
  {
    SplitLinesOfJoinLines(lines);
  }

  /** Field 4 of a slash-separated summary is the one handed to `float()`. */
  lemma AverageOfFields(fields: seq<string>, parseFloat: string -> Option<real>)
    requires |fields| >= 5
    requires forall k, j :: 0 <= k < |fields| && 0 <= j < |fields[k]| ==> fields[k][j] != '/'
    ensures AverageField(Join(fields, '/'), parseFloat) == parseFloat(fields[4])
  {
    SplitOfJoin(fields, '/');
  }

  /**
    The first summary line decides the result: whatever follows it, even a
    well-formed summary line, is never looked at.
   */
  lemma FirstSummaryLineDecides(before: seq<string>, line: string, after: seq<string>,
                                parseFloat: string -> Option<real>)
    requires forall k :: 0 <= k < |before| ==> !IsSummaryLine(before[k])
    requires IsSummaryLine(line)
    ensures AverageOfLines(before + [line] + after, parseFloat) == AverageField(line, parseFloat)
  {
    var lines := before + [line] + after;
    assert forall k :: 0 <= k < |before| ==> lines[k] == before[k];
    assert lines[|before|] == line;
    FirstWhereIs(lines, IsSummaryLine, |before|);
  }

  /** Appending output after a summary line never changes the result. */
  lemma LaterLinesIgnored(lines: seq<string>, more: seq<string>, parseFloat: string -> Option<real>)
    requires exists k :: 0 <= k < |lines| && IsSummaryLine(lines[k])
    ensures AverageOfLines(lines + more, parseFloat) == AverageOfLines(lines, parseFloat)
  {
    var k := FirstWhere(lines, IsSummaryLine);
    var all := lines + more;
    assert forall j :: 0 <= j <= k ==> all[j] == lines[j];
    FirstWhereIs(all, IsSummaryLine, k);
  }

  /**
    Both `ping` dialects end with `<heading> min/avg/max/<spread> = a/b/c/d ms`;
    the result is `float(b)`, the second number.
   */
  lemma DialectSummary(heading: string, spread: string, a: string, b: string, c: string, d: string,
                       parseFloat: string -> Option<real>)
    requires '/' !in heading && '/' !in spread
    requires '/' !in a && '/' !in b && '/' !in c && '/' !in d
    ensures var line := Join([heading + " min", "avg", "max", spread + " = " + a, b, c, d + " ms"], '/');
            IsSummaryLine(line) && AverageField(line, parseFloat) == parseFloat(b)
  {
    var fields := [heading + " min", "avg", "max", spread + " = " + a, b, c, d + " ms"];
    assert '/' !in " min" && '/' !in " = " && '/' !in " ms";
    AverageOfFields(fields, parseFloat);
    SummaryMarkerInSecondField(fields);
  }

  /** BSD `ping`: `round-trip min/avg/max/stddev = a/b/c/d ms` yields `float(b)`. */
  lemma BsdSummary(a: string, b: string, c: string, d: string, parseFloat: string -> Option<real>)
    requires '/' !in a && '/' !in b && '/' !in c && '/' !in d
    ensures var line := Join(["round-trip min", "avg", "max", "stddev = " + a, b, c, d + " ms"], '/');
            IsSummaryLine(line) && AverageField(line, parseFloat) == parseFloat(b)
  {
    assert "round-trip min" == "round-trip" + " min";
    assert "stddev = " == "stddev" + " = ";
    DialectSummary("round-trip", "stddev", a, b, c, d, parseFloat);
  }

  /** Linux `ping`: `rtt min/avg/max/mdev = a/b/c/d ms` yields `float(b)` as well. */
  lemma LinuxSummary(a: string, b: string, c: string, d: string, parseFloat: string -> Option<real>)
    requires '/' !in a && '/' !in b && '/' !in c && '/' !in d
    ensures var line := Join(["rtt min", "avg", "max", "mdev = " + a, b, c, d + " ms"], '/');
            IsSummaryLine(line) && AverageField(line, parseFloat) == parseFloat(b)
  {
    assert "rtt min" == "rtt" + " min";
    assert "mdev = " == "mdev" + " = ";
    DialectSummary("rtt", "mdev", a, b, c, d, parseFloat);
  }

  /** A line whose second `/`-field is `avg` is a summary line. */
  lemma SummaryMarkerInSecondField(fields: seq<string>)
    requires |fields| >= 3 && fields[1] == SummaryMarker
    ensures IsSummaryLine(Join(fields, '/'))
  {
    var head := fields[0] + ['/'];
    var rest := Join(fields[1..], '/');
    assert rest == SummaryMarker + (['/'] + Join(fields[2..], '/'));
    assert rest[..|SummaryMarker|] == SummaryMarker;
    assert OccursAt(rest, SummaryMarker, 0);
    assert (head + rest)[|head|..|head| + |SummaryMarker|] == rest[..|SummaryMarker|];
    assert OccursAt(head + rest, SummaryMarker, |head|);
  }

  /** The reference IPv4 output: `13.610` is the field read, not the minimum or maximum. */
  lemma BsdReferenceLine(parseFloat: string -> Option<real>)
    ensures AverageField(Join(["round-trip min", "avg", "max", "stddev = 12.994", "13.610", "14.302", "0.640 ms"], '/'), parseFloat)
            == parseFloat("13.610")
  {
    assert "stddev = 12.994" == "stddev = " + "12.994";
    assert "0.640 ms" == "0.640" + " ms";
    BsdSummary("12.994", "13.610", "14.302", "0.640", parseFloat);
  }

  /** The reference IPv6 output: `15.250` is the field read. */
  lemma LinuxReferenceLine(parseFloat: string -> Option<real>)
    ensures AverageField(Join(["rtt min", "avg", "max", "mdev = 14.800", "15.250", "15.600", "0.294 ms"], '/'), parseFloat)
            == parseFloat("15.250")
  {
    assert "mdev = 14.800" == "mdev = " + "14.800";
    assert "0.294 ms" == "0.294" + " ms";
    LinuxSummary("14.800", "15.250", "15.600", "0.294", parseFloat);
  }

  /**
    On a clean exit, a summary line decides the result, whatever is printed
    after it, when every line printed before it lacks one of the letters of
    `avg`, as the banner, the echo replies and the statistics header of both
    dialects do.
   */
  lemma PrintedSummaryDecides(before: seq<string>, line: string, after: seq<string>,
                               parseFloat: string -> Option<real>)
    requires forall k :: 0 <= k < |before| ==> NoLineBreak(before[k])
    requires forall k :: 0 <= k < |before| ==>
      exists m :: 0 <= m < |SummaryMarker| && SummaryMarker[m] !in before[k]
    requires NoLineBreak(line) && IsSummaryLine(line)
    requires forall k :: 0 <= k < |after| ==> NoLineBreak(after[k])
    ensures Parse(Completed(0, JoinLines(before + [line] + after)), parseFloat) == AverageField(line, parseFloat)
  {
    forall k | 0 <= k < |before|
      ensures !IsSummaryLine(before[k])
    {
      var m :| 0 <= m < |SummaryMarker| && SummaryMarker[m] !in before[k];
      NotContainsMissingChar(before[k], SummaryMarker, m);
    }
    PrintedLinesUnbroken(before, line, after);
    ParseOfPrintedOutput(before + [line] + after, parseFloat);
    FirstSummaryLineDecides(before, line, after, parseFloat);
  }

  lemma PrintedLinesUnbroken(before: seq<string>, line: string, after: seq<string>)
    requires forall k :: 0 <= k < |before| ==> NoLineBreak(before[k])
    requires NoLineBreak(line)
    requires forall k :: 0 <= k < |after| ==> NoLineBreak(after[k])
    ensures var lines := before + [line] + after;
            forall k :: 0 <= k < |lines| ==> NoLineBreak(lines[k])
  {
    var lines := before + [line] + after;
    forall k | 0 <= k < |lines|
      ensures NoLineBreak(lines[k])
    {
      if k < |before| {
        assert lines[k] == before[k];
      } else if k > |before| {
        assert lines[k] == after[k - |before| - 1];
      }
    }
  }
}

=== FILE: text.dfy ===
/**
  The handful of Python `str` operations the probe parsers rely on, written out
  over `seq<char>`: `splitlines()`, `split(sep)`, `split()`, `strip()` emptiness,
  `in`, `startswith` and `str(int)`. `splitlines`, `split(sep)`, `split()` and
  `str(int)` come with their inverses, and `strip()` emptiness with its relation
  to `split()`; `in` and `startswith` are plain definitions, with one fact about
  `in`: a text lacking a character of a substring does not contain it.
 */
module Text {
  import opened Base

  /** Python's `str.isspace()`: the characters `split()` and `strip()` cut on. */
  predicate IsSpace(c: char)
  {
    || c == ' '
    || ('\U{9}' <= c <= '\U{d}')
    || ('\U{1c}' <= c <= '\U{1f}')
    || c == '\U{85}' || c == '\U{a0}' || c == '\U{1680}'
    || ('\U{2000}' <= c <= '\U{200a}')
    || c == '\U{2028}' || c == '\U{2029}' || c == '\U{202f}' || c == '\U{205f}' || c == '\U{3000}'
  }

  predicate NotSpace(c: char)
  {
    !IsSpace(c)
  }

  /** The line boundaries of Python's `str.splitlines()` (`\r\n` counts as one). */
  predicate IsLineBreak(c: char)
  {
    || c == '\n' || c == '\r' || c == '\U{b}' || c == '\U{c}'
    || c == '\U{1c}' || c == '\U{1d}' || c == '\U{1e}'
    || c == '\U{85}' || c == '\U{2028}' || c == '\U{2029}'
  }

  /** Index of the first element of `s` that satisfies `p`, or `|s|` when none does. */
  function FirstWhere<T>(s: seq<T>, p: T -> bool): (i: nat)
    ensures i <= |s|
    ensures forall k :: 0 <= k < i ==> !p(s[k])
    ensures i < |s| ==> p(s[i])
    decreases |s|
  {
    if s == [] || p(s[0]) then 0 else 1 + FirstWhere(s[1..], p)
  }

  /** The two facts `FirstWhere` ensures determine its result. */
  lemma FirstWhereIs<T>(s: seq<T>, p: T -> bool, i: nat)
    requires i <= |s|
    requires forall k :: 0 <= k < i ==> !p(s[k])
    requires i < |s| ==> p(s[i])
    ensures FirstWhere(s, p) == i
  {
  }

  // ---------------------------------------------------------------------------
  // str.splitlines()

  /**
    Python's `s.splitlines()`: the text between consecutive line boundaries,
    with no empty line after a final boundary.
   */
  function SplitLines(s: string): (lines: seq<string>)
    ensures |lines| <= |s|
    ensures forall k, j :: 0 <= k < |lines| && 0 <= j < |lines[k]| ==> !IsLineBreak(lines[k][j])
    decreases |s|
  {
    if s == [] then []
    else
      var i := FirstWhere(s, IsLineBreak);
      if i == |s| then [s]
      else
        var next := if s[i] == '\r' && i + 1 < |s| && s[i + 1] == '\n' then i + 2 else i + 1;
        [s[..i]] + SplitLines(s[next..])
  }

  /** Lines written one after another, each terminated by `\n`, as a probe prints them. */
  function JoinLines(lines: seq<string>): string
  {
    if lines == [] then "" else lines[0] + "\n" + JoinLines(lines[1..])
  }

  predicate NoLineBreak(line: string)
  {
    forall j :: 0 <= j < |line| ==> !IsLineBreak(line[j])
  }

  /** `splitlines` recovers exactly the lines of a newline-terminated text. */
  lemma {:induction false} SplitLinesOfJoinLines(lines: seq<string>)
    requires forall k :: 0 <= k < |lines| ==> NoLineBreak(lines[k])
    ensures SplitLines(JoinLines(lines)) == lines
  {
    if lines != [] {
      SplitLinesFirstLine(lines[0], JoinLines(lines[1..]));
      SplitLinesOfJoinLines(lines[1..]);
    }
  }

  /** A break-free line ended by `\n` comes off whole, whatever follows. */
  lemma SplitLinesFirstLine(line: string, rest: string)
    requires NoLineBreak(line)
    ensures SplitLines(line + "\n" + rest) == [line] + SplitLines(rest)
  {
    var s := line + "\n" + rest;
    var n := |line|;
    assert s[n] == '\n';
    assert forall k :: 0 <= k < n ==> s[k] == line[k];
    FirstWhereIs(s, IsLineBreak, n);
    assert s[..n] == line;
    assert s[n + 1..] == rest;
  }

  // ---------------------------------------------------------------------------
  // str.split(sep) and its inverse sep.join(parts)

  /** Python's `s.split(sep)` for a one-character separator: never an empty list. */
  function Split(s: string, sep: char): (parts: seq<string>)
    ensures |parts| >= 1
    ensures forall k, j :: 0 <= k < |parts| && 0 <= j < |parts[k]| ==> parts[k][j] != sep
    decreases |s|
  {
    var i := FirstWhere(s, c => c == sep);
    if i == |s| then [s] else [s[..i]] + Split(s[i + 1..], sep)
  }

  /** Python's `sep.join(parts)`. */
  function Join(parts: seq<string>, sep: char): string
    requires |parts| >= 1
  {
    if |parts| == 1 then parts[0] else parts[0] + [sep] + Join(parts[1..], sep)
  }

  /** Splitting and re-joining gives the text back. */
  lemma {:induction false} JoinOfSplit(s: string, sep: char)
    ensures Join(Split(s, sep), sep) == s
    decreases |s|
  {
    var i := FirstWhere(s, c => c == sep);
    var parts := Split(s, sep);
    if i < |s| {
      var rest := s[i + 1..];
      assert parts == [s[..i]] + Split(rest, sep);
      assert parts[1..] == Split(rest, sep);
      JoinOfSplit(rest, sep);
      assert Join(parts, sep) == s[..i] + [sep] + rest;
      assert s == s[..i] + [sep] + rest;
    } else {
      assert parts == [s];
    }
  }

  /** Joining separator-free parts and splitting again gives the parts back. */
  lemma {:induction false} SplitOfJoin(parts: seq<string>, sep: char)
    requires |parts| >= 1
    requires forall k, j :: 0 <= k < |parts| && 0 <= j < |parts[k]| ==> parts[k][j] != sep
    ensures Split(Join(parts, sep), sep) == parts
    decreases |parts|
  {
    assert forall j :: 0 <= j < |parts[0]| ==> parts[0][j] != sep;
    if |parts| == 1 {
      SplitWhole(parts[0], sep);
    } else {
      SplitFirstField(parts[0], sep, Join(parts[1..], sep));
      SplitOfJoin(parts[1..], sep);
    }
  }

  /** A separator-free text is one field. */
  lemma SplitWhole(field: string, sep: char)
    requires sep !in field
    ensures Split(field, sep) == [field]
  {
    FirstWhereIs(field, c => c == sep, |field|);
  }

  /** A separator-free first field is split off whole. */
  lemma SplitFirstField(field: string, sep: char, rest: string)
    requires sep !in field
    ensures Split(field + [sep] + rest, sep) == [field] + Split(rest, sep)
  {
    var s := field + [sep] + rest;
    var n := |field|;
    assert forall k :: 0 <= k < n ==> s[k] == field[k];
    FirstWhereIs(s, c => c == sep, n);
    assert s[..n] == field;
    assert s[n + 1..] == rest;
  }

  /** `split(sep)` yields one more field than there are separators. */
  lemma {:induction false} SplitCount(s: string, sep: char)
    ensures |Split(s, sep)| == multiset(s)[sep] + 1
    decreases |s|
  {
    var i := FirstWhere(s, c => c == sep);
    var field := s[..i];
    assert sep !in field;
    if i == |s| {
      assert field == s;
      SplitWhole(s, sep);
    } else {
      var rest := s[i + 1..];
      assert s == field + [sep] + rest;
      SplitFirstField(field, sep, rest);
      SplitCount(rest, sep);
      SeparatorCount(field, sep, rest);
    }
  }

  lemma SeparatorCount(field: string, sep: char, rest: string)
    requires sep !in field
    ensures multiset(field + [sep] + rest)[sep] == multiset(rest)[sep] + 1
  {
    assert multiset(field + [sep] + rest) == multiset(field) + multiset{sep} + multiset(rest);
  }

  // ---------------------------------------------------------------------------
  // str.split() with no separator, and str.strip() emptiness

  /** A word of `split()`'s result: non-empty and free of whitespace. */
  predicate IsToken(t: string)
  {
    t != [] && forall j :: 0 <= j < |t| ==> !IsSpace(t[j])
  }

  /** `s.strip()` is empty exactly when every character of `s` is whitespace. */
  predicate IsBlank(s: string)
  {
    forall j :: 0 <= j < |s| ==> IsSpace(s[j])
  }

  /** Python's `s.split()`: the maximal runs of non-whitespace, in order. */
  function Tokens(s: string): (tokens: seq<string>)
    ensures forall k :: 0 <= k < |tokens| ==> IsToken(tokens[k])
    decreases |s|, 1
  {
    WordsFrom(s[FirstWhere(s, NotSpace)..])
  }

  /** The words of a text that is empty or starts with a word. */
  function WordsFrom(rest: string): (tokens: seq<string>)
    requires rest == [] || NotSpace(rest[0])
    ensures forall k :: 0 <= k < |tokens| ==> IsToken(tokens[k])
    decreases |rest|, 0
  {
    if rest == [] then []
    else
      var len := FirstWhere(rest, IsSpace);
      [rest[..len]] + Tokens(rest[len..])
  }

  /** Words separated by runs of whitespace, `gaps[k]` between `words[k]` and `words[k + 1]`. */
  function Spaced(words: seq<string>, gaps: seq<string>): string
    requires |words| == |gaps| + 1
    decreases |gaps|
  {
    if gaps == [] then words[0] else words[0] + (gaps[0] + Spaced(words[1..], gaps[1..]))
  }

  /** `split()` finds no word exactly when `strip()` leaves nothing. */
  lemma TokensEmptyIffBlank(s: string)
    ensures Tokens(s) == [] <==> IsBlank(s)
  {
    var start := FirstWhere(s, NotSpace);
    if IsBlank(s) {
      FirstWhereIs(s, NotSpace, |s|);
    } else {
      assert start < |s|;
    }
  }

  /** Skipping a prefix none of whose elements satisfies `p` shifts the first match by its length. */
  lemma FirstWhereAfter<T>(pre: seq<T>, s: seq<T>, p: T -> bool)
    requires forall k :: 0 <= k < |pre| ==> !p(pre[k])
    ensures FirstWhere(pre + s, p) == |pre| + FirstWhere(s, p)
  {
    var t, i := pre + s, FirstWhere(s, p);
    forall k | 0 <= k < |pre| + i
      ensures !p(t[k])
    {
      if k < |pre| {
        assert t[k] == pre[k];
      } else {
        assert t[k] == s[k - |pre|];
      }
    }
    if i < |s| {
      assert t[|pre| + i] == s[i];
    }
    FirstWhereIs(t, p, |pre| + i);
  }

  /** Leading whitespace does not change the words. */
  lemma TokensSkipBlank(blank: string, s: string)
    requires IsBlank(blank)
    ensures Tokens(blank + s) == Tokens(s)
  {
    FirstWordAfterBlank(blank, s);
  }

  /** Skipping leading whitespace lands on the same text with or without `blank` in front. */
  lemma FirstWordAfterBlank(blank: string, s: string)
    requires IsBlank(blank)
    ensures (blank + s)[FirstWhere(blank + s, NotSpace)..] == s[FirstWhere(s, NotSpace)..]
  {
    var t, start := blank + s, FirstWhere(s, NotSpace);
    FirstWhereAfter(blank, s, NotSpace);
    assert t[|blank| + start..] == s[start..];
  }

  /** A word followed by whitespace (or nothing) is the first word. */
  lemma TokensLeadingWord(word: string, s: string)
    requires IsToken(word)
    requires s == [] || IsSpace(s[0])
    ensures Tokens(word + s) == [word] + Tokens(s)
  {
    var t := word + s;
    assert forall k :: 0 <= k < |word| ==> t[k] == word[k];
    FirstWhereIs(t, NotSpace, 0);
    assert t[0..] == t;
    FirstWhereIs(t, IsSpace, |word|);
    assert t[..|word|] == word;
    assert t[|word|..] == s;
  }

  /** A word, a non-empty gap of whitespace, then the rest of the line. */
  lemma TokensOfSpaced(word: string, gap: string, s: string)
    requires IsToken(word) && gap != [] && IsBlank(gap)
    ensures Tokens(word + (gap + s)) == [word] + Tokens(s)
  {
    TokensLeadingWord(word, gap + s);
    TokensSkipBlank(gap, s);
  }

  /** `split()` recovers the words however wide the whitespace between them. */
  lemma {:induction false} TokensOfSpacedWords(words: seq<string>, gaps: seq<string>)
    requires |words| == |gaps| + 1
    requires forall k :: 0 <= k < |words| ==> IsToken(words[k])
    requires forall k :: 0 <= k < |gaps| ==> gaps[k] != [] && IsBlank(gaps[k])
    ensures Tokens(Spaced(words, gaps)) == words
    decreases |gaps|
  {
    if gaps == [] {
      assert words[0] + "" == words[0];
      TokensLeadingWord(words[0], "");
      TokensEmptyIffBlank("");
    } else {
      TokensOfSpacedWords(words[1..], gaps[1..]);
      TokensOfSpaced(words[0], gaps[0], Spaced(words[1..], gaps[1..]));
    }
  }

  // ---------------------------------------------------------------------------
  // substring membership and prefixes

  /** `sub` occurs in `s` starting at index `i`. */
  predicate OccursAt(s: string, sub: string, i: nat)
  {
    i + |sub| <= |s| && s[i..i + |sub|] == sub
  }

  /** Python's `sub in s`. */
  predicate Contains(s: string, sub: string)
  {
    exists i: nat | i <= |s| :: OccursAt(s, sub, i)
  }

  /** Python's `s.startswith(prefix)`. */
  predicate StartsWith(s: string, prefix: string)
  {
    |prefix| <= |s| && s[..|prefix|] == prefix
  }

  /** A text lacking any one character of `sub` cannot contain `sub`. */
  lemma NotContainsMissingChar(s: string, sub: string, k: nat)
    requires k < |sub| && sub[k] !in s
    ensures !Contains(s, sub)
  {
    forall i: nat | i + |sub| <= |s|
      ensures !OccursAt(s, sub, i)
    {
      assert s[i..i + |sub|][k] == s[i + k];
    }
  }

  // ---------------------------------------------------------------------------
  // str(int) and its inverse

  predicate IsDigit(c: char)
  {
    '0' as int <= c as int <= '9' as int
  }

  predicate IsDigits(s: string)
  {
    |s| > 0 && forall k :: 0 <= k < |s| ==> IsDigit(s[k])
  }

  function DigitChar(d: nat): (c: char)
    requires d < 10
    ensures IsDigit(c) && DigitValue(c) == d
  {
    (d + '0' as int) as char
  }

  function DigitValue(c: char): nat
    requires IsDigit(c)
  {
    c as int - '0' as int
  }

  /** The value of a run of decimal digits, most significant first. */
  function DigitsValue(s: string): nat
    requires forall k :: 0 <= k < |s| ==> IsDigit(s[k])
    decreases |s|
  {
    if s == [] then 0
    else 10 * DigitsValue(s[..|s| - 1]) + DigitValue(s[|s| - 1])
  }

  /** Python's `str(n)` for a non-negative `int`. */
  function NatToString(n: nat): string
    decreases n
  {
    if n < 10 then [DigitChar(n)] else NatToString(n / 10) + [DigitChar(n % 10)]
  }

  /** Python's `str(n)` for an `int`. */
  function IntToString(n: int): string
  {
    if n < 0 then "-" + NatToString(-n) else NatToString(n)
  }

  /** Digits without a leading zero, except for `0` itself: how `str(n)` writes a `nat`. */
  predicate IsNumeral(s: string)
  {
    IsDigits(s) && (|s| == 1 || s[0] != '0')
  }

  /**
    The notation `str(n)` produces: a numeral, or `-` and a numeral other than
    `0`; anything else (`04`, `-0`, `+4`, ``) is rejected.
   */
  function ParseInt(s: string): Option<int>
  {
    if |s| > 0 && s[0] == '-' then
      if IsNumeral(s[1..]) && s[1..] != "0" then Some(0 - DigitsValue(s[1..]) as int) else None
    else if IsNumeral(s) then Some(DigitsValue(s))
    else None
  }

  lemma {:induction false} NatToStringValue(n: nat)
    ensures IsNumeral(NatToString(n))
    ensures DigitsValue(NatToString(n)) == n
    ensures n > 0 ==> NatToString(n)[0] != '0'
    decreases n
  {
    var s := NatToString(n);
    if n >= 10 {
      NatToStringValue(n / 10);
      assert s[..|s| - 1] == NatToString(n / 10);
      assert s[0] == NatToString(n / 10)[0];
    } else {
      assert DigitValue(s[0]) == n;
    }
  }

  /** A numeral that does not start with `0` has a positive value. */
  lemma {:induction false} LeadingDigitPositive(d: string)
    requires IsDigits(d) && d[0] != '0'
    ensures DigitsValue(d) > 0
    decreases |d|
  {
    if |d| > 1 {
      var prefix := d[..|d| - 1];
      assert prefix[0] == d[0];
      LeadingDigitPositive(prefix);
    }
  }

  /** A numeral is exactly how `str()` writes its own value. */
  lemma {:induction false} NumeralIsNatToString(d: string)
    requires IsNumeral(d)
    ensures NatToString(DigitsValue(d)) == d
    decreases |d|
  {
    var v := DigitsValue(d);
    if |d| == 1 {
      assert d == [DigitChar(DigitValue(d[0]))];
    } else {
      var prefix := d[..|d| - 1];
      assert prefix[0] == d[0];
      LeadingDigitPositive(prefix);
      NumeralIsNatToString(prefix);
      var last := DigitValue(d[|d| - 1]);
      assert v == 10 * DigitsValue(prefix) + last;
      assert v / 10 == DigitsValue(prefix) && v % 10 == last;
      assert DigitChar(last) == d[|d| - 1];
      assert d == prefix + [d[|d| - 1]];
    }
  }

  /** `str(n)` loses nothing: the integer can be read back from its text. */
  lemma IntToStringRoundTrip(n: int)
    ensures ParseInt(IntToString(n)) == Some(n)
  {
    if n < 0 {
      NatToStringValue(-n);
      assert IntToString(n)[1..] == NatToString(-n);
    } else {
      NatToStringValue(n);
    }
  }

  /** Padded or signed-zero spellings are not integers here, though `int()` would accept them. */
  lemma NonCanonicalRejected()
    ensures ParseInt("04") == None && ParseInt("-0") == None && ParseInt("+4") == None
  {
  }

  /** The only text read back as `n` is `str(n)` itself. */
  lemma ParseIntOnlyCanonical(s: string, n: int)
    requires ParseInt(s) == Some(n)
    ensures s == IntToString(n)
  {
    if |s| > 0 && s[0] == '-' {
      var d := s[1..];
      NumeralIsNatToString(d);
      if |d| == 1 {
        assert d[0] != '0' by { assert d != "0"; assert d == [d[0]]; }
      }
      LeadingDigitPositive(d);
      assert s == "-" + d;
    } else {
      NumeralIsNatToString(s);
    }
  }
}

=== FILE: traceroute.dfy ===
/**
  The path probe: the command line `traceroute` is run with, and how its exit
  status and standard output become a list of hops, or `None` when the probe
  failed. An empty list (the probe printed no hop line) is a success and is
  distinct from `None`.
 */
module Traceroute {
  import opened Base
  import opened Text
  import Command

  /** Default hop limit and per-hop timeout in seconds of `traceroute(host)`. */
  const DefaultMaxHops := 30
  const DefaultTimeout := 2

  /** The prefix of the header line `traceroute` prints first. */
  const HeaderPrefix := "traceroute"

  /** The command line: `traceroute`/`traceroute6 -m <max_hops> -w <timeout> <host>`. */
  function Argv(host: string, maxHops: int, timeout: int, ipv6: bool): (argv: seq<string>)
    ensures |argv| == 6
    ensures argv[0] == (if ipv6 then "traceroute6" else "traceroute")
    ensures argv[1] == "-m" && argv[3] == "-w" && argv[5] == host
    ensures ParseInt(argv[2]) == Some(maxHops) && ParseInt(argv[4]) == Some(timeout)
  {
    Command.Argv(if ipv6 then "traceroute6" else "traceroute", "-m", maxHops, "-w", timeout, host)
  }

  /** `traceroute(host)` with its defaults runs `traceroute -m 30 -w 2 <host>`. */
  lemma DefaultRequest(host: string)
    ensures var argv := Argv(host, DefaultMaxHops, DefaultTimeout, false);
            && argv[0] == "traceroute" && argv[1] == "-m" && argv[3] == "-w" && argv[5] == host
            && argv[2] == IntToString(30) && argv[4] == IntToString(2)
  {
    var argv := Argv(host, DefaultMaxHops, DefaultTimeout, false);
    ParseIntOnlyCanonical(argv[2], DefaultMaxHops);
    ParseIntOnlyCanonical(argv[4], DefaultTimeout);
  }

  /**
    One hop: the hop number and the address exactly as printed (the number
    stays text), then every remaining word of its line.
   */
  datatype Hop = Hop(number: string, address: string, rtt: seq<string>)
  {
    /** The words of the output line this hop was read from. */
    function Words(): seq<string>
    {
      [number, address] + rtt
    }
  }

  /** The hop a line's words describe: `(parts[0], parts[1], parts[2:])`. */
  function HopOfWords(parts: seq<string>): (hop: Hop)
    requires |parts| >= 2
    ensures hop.Words() == parts
  {
    Hop(parts[0], parts[1], parts[2..])
  }

  /** Lines that yield no hop: the header, and empty or whitespace-only lines. */
  predicate IsSkipped(line: string)
  {
    StartsWith(line, HeaderPrefix) || IsBlank(line)
  }

  /** The lines that each become one hop, in output order. */
  function HopLines(lines: seq<string>): (hopLines: seq<string>)
    ensures |hopLines| <= |lines|
    ensures forall k :: 0 <= k < |hopLines| ==> !IsSkipped(hopLines[k])
  {
    if lines == [] then []
    else if IsSkipped(lines[0]) then HopLines(lines[1..])
    else [lines[0]] + HopLines(lines[1..])
  }

  /** A single line is kept exactly when it is not skipped. */
  lemma HopLinesOfLine(line: string)
    ensures HopLines([line]) == if IsSkipped(line) then [] else [line]
  {
    assert [line][1..] == [];
  }

  /** Selecting hop lines distributes over concatenation, so order is kept. */
  lemma {:induction false} HopLinesAppend(a: seq<string>, b: seq<string>)
    ensures HopLines(a + b) == HopLines(a) + HopLines(b)
    decreases |a|
  {
    if a != [] {
      assert (a + b)[0] == a[0];
      assert (a + b)[1..] == a[1..] + b;
      HopLinesAppend(a[1..], b);
    } else {
      assert a + b == b;
    }
  }

  /**
    The parsing loop over the output lines. A line that is not skipped but has
    a single word makes `parts[1]` raise `IndexError`, which voids the whole
    result instead of dropping that line.
   */
  function ParseLines(lines: seq<string>): (r: Option<seq<Hop>>)
    ensures r.Some? ==> |r.value| <= |lines|
  {
    if lines == [] then Some([])
    else if IsSkipped(lines[0]) then ParseLines(lines[1..])
    else
      var parts := Tokens(lines[0]);
      if |parts| < 2 then None
      else match ParseLines(lines[1..])
        case None => None
        case Some(rest) => Some([HopOfWords(parts)] + rest)
  }

  /** `traceroute(host, ...)` given what running the command produced. */
  function Parse(outcome: RunOutcome): (r: Option<seq<Hop>>)
    ensures outcome.Raised? ==> r == None
    ensures outcome.Completed? && outcome.returnCode != 0 ==> r == None
    ensures r.Some? ==> |r.value| <= |SplitLines(outcome.stdout)|
  {
    match outcome
    case Raised => None
    case Completed(returnCode, stdout) =>
      if returnCode == 0 then ParseLines(SplitLines(stdout)) else None
  }

  /** Every line that is not skipped has at least two words. */
  predicate AllHopLinesWellFormed(lines: seq<string>)
  {
    forall k :: 0 <= k < |HopLines(lines)| ==> |Tokens(HopLines(lines)[k])| >= 2
  }

  /** Well-formedness of a listing is that of its first line and of the rest. */
  lemma WellFormedUnfold(lines: seq<string>)
    requires lines != []
    ensures AllHopLinesWellFormed(lines) <==>
      (IsSkipped(lines[0]) || |Tokens(lines[0])| >= 2) && AllHopLinesWellFormed(lines[1..])
  {
    var all := HopLines(lines);
    var tail := HopLines(lines[1..]);
    if !IsSkipped(lines[0]) {
      assert all == [lines[0]] + tail;
      assert forall k :: 0 <= k < |tail| ==> tail[k] == all[k + 1];
      if AllHopLinesWellFormed(lines[1..]) && |Tokens(lines[0])| >= 2 {
        forall k | 0 <= k < |all| ensures |Tokens(all[k])| >= 2 {
          if k > 0 {
            assert all[k] == tail[k - 1];
          }
        }
      } else if !AllHopLinesWellFormed(lines[1..]) {
        var k :| 0 <= k < |tail| && |Tokens(tail[k])| < 2;
        assert all[k + 1] == tail[k];
      } else {
        assert all[0] == lines[0];
      }
    }
  }

  /** Parsing succeeds exactly when every hop line has at least two words. */
  lemma {:induction false} ParseSucceedsIffWellFormed(lines: seq<string>)
    ensures ParseLines(lines).Some? <==> AllHopLinesWellFormed(lines)
  {
    if lines != [] {
      ParseSucceedsIffWellFormed(lines[1..]);
      WellFormedUnfold(lines);
    }
  }

  /**
    A successful parse yields one hop per hop line, in order, whose number,
    address and rtt words are exactly that line's words.
   */
  lemma {:induction false} ParsedHopsAreHopLines(lines: seq<string>)
    requires ParseLines(lines).Some?
    ensures |ParseLines(lines).value| == |HopLines(lines)|
    ensures forall k :: 0 <= k < |HopLines(lines)| ==> ParseLines(lines).value[k].Words() == Tokens(HopLines(lines)[k])
  {
    if lines != [] {
      ParsedHopsAreHopLines(lines[1..]);
      if !IsSkipped(lines[0]) {
        var parts := Tokens(lines[0]);
        var hop := Hop(parts[0], parts[1], parts[2..]);
        assert hop.Words() == parts;
        var all := HopLines(lines);
        var tail := HopLines(lines[1..]);
        assert all == [lines[0]] + tail;
        var hops := ParseLines(lines).value;
        assert hops == [hop] + ParseLines(lines[1..]).value;
        forall k | 0 <= k < |all|
          ensures hops[k].Words() == Tokens(all[k])
        {
          if k > 0 {
            assert hops[k] == ParseLines(lines[1..]).value[k - 1];
            assert all[k] == tail[k - 1];
          }
        }
      }
    }
  }

  /** On a clean exit, the printed lines are parsed one by one, as written. */
  lemma ParseOfPrintedListing(lines: seq<string>)
    requires forall k :: 0 <= k < |lines| ==> NoLineBreak(lines[k])
    ensures Parse(Completed(0, JoinLines(lines))) == ParseLines(lines)
  {
    SplitLinesOfJoinLines(lines);
  }

  /** Header and blank lines alone give the empty path, which is not `None`. */
  lemma {:induction false} OnlySkippedLinesGiveEmptyPath(lines: seq<string>)
    requires forall k :: 0 <= k < |lines| ==> IsSkipped(lines[k])
    ensures ParseLines(lines) == Some([])
  {
    if lines != [] {
      OnlySkippedLinesGiveEmptyPath(lines[1..]);
    }
  }

  /** One single-word hop line anywhere voids the result, whatever surrounds it. */
  lemma {:induction false} SingleWordLineVoidsPath(before: seq<string>, line: string, after: seq<string>)
    requires !IsSkipped(line) && |Tokens(line)| < 2
    ensures ParseLines(before + [line] + after) == None
  {
    var lines := before + [line] + after;
    if before == [] {
      assert lines[0] == line;
    } else {
      assert lines[1..] == before[1..] + [line] + after;
      SingleWordLineVoidsPath(before[1..], line, after);
    }
  }

  /**
    A line holding a hop number, an address and any further words, separated
    by runs of whitespace, becomes the single hop `(number, address, rest)`.
   */
  lemma HopLineShape(number: string, address: string, rtt: seq<string>, gaps: seq<string>)
    requires IsDigits(number) && IsToken(address)
    requires forall k :: 0 <= k < |rtt| ==> IsToken(rtt[k])
    requires |gaps| == |rtt| + 1
    requires forall k :: 0 <= k < |gaps| ==> gaps[k] != [] && IsBlank(gaps[k])
    ensures ParseLines([Spaced([number, address] + rtt, gaps)]) == Some([Hop(number, address, rtt)])
  {
    var words := [number, address] + rtt;
    assert forall k :: 2 <= k < |words| ==> words[k] == rtt[k - 2];
    TokensOfSpacedWords(words, gaps);
    var rest := gaps[0] + Spaced(words[1..], gaps[1..]);
    NumberedLineNotSkipped(number, rest);
    SingleHopLine(number + rest);
    assert HopOfWords(words) == Hop(number, address, rtt);
  }

  /** A one-line listing whose line is a hop line of two or more words. */
  lemma SingleHopLine(line: string)
    requires !IsSkipped(line) && |Tokens(line)| >= 2
    ensures ParseLines([line]) == Some([HopOfWords(Tokens(line))])
  {
    var lines := [line];
    assert lines[1..] == [];
    assert ParseLines(lines[1..]) == Some([]);
    var r := ParseLines(lines).value;
    var h := HopOfWords(Tokens(line));
    assert |r| == 1 && r[0] == h;
    assert r == [h];
  }

  /** A line that starts with a hop number is neither the header nor blank. */
  lemma NumberedLineNotSkipped(number: string, rest: string)
    requires IsDigits(number)
    ensures !IsSkipped(number + rest)
  {
    var line := number + rest;
    assert line[0] == number[0];
    assert IsDigit(line[0]) && !IsSpace(line[0]);
    assert HeaderPrefix[0] == 't';
  }

  /**
    The first hop line of the reference IPv4 output. The literals are bound to
    parameters through `requires` because the solver handles a named value far
    more cheaply than the same literal repeated throughout the proof.
   */
  lemma ReferenceHopLine(line: string, words: seq<string>, gaps: seq<string>)
    requires line == "1  192.168.1.1  1.123 ms"
    requires words == ["1", "192.168.1.1", "1.123", "ms"] && gaps == ["  ", "  ", " "]
    ensures ParseLines([line]) == Some([Hop(words[0], words[1], words[2..])])
  {
    ReferenceSpacing(line, words, gaps);
    ReferenceWords(words, gaps);
    assert words == [words[0], words[1]] + words[2..];
    HopLineShape(words[0], words[1], words[2..], gaps);
  }

  /** The reference line is its words joined by its gaps (literals as parameters, as above). */
  lemma ReferenceSpacing(line: string, words: seq<string>, gaps: seq<string>)
    requires line == "1  192.168.1.1  1.123 ms"
    requires words == ["1", "192.168.1.1", "1.123", "ms"] && gaps == ["  ", "  ", " "]
    ensures Spaced(words, gaps) == line
  {
    var w, g := words, gaps;
    assert Spaced(w[3..], g[3..]) == w[3];
    assert Spaced(w[2..], g[2..]) == w[2] + (g[2] + w[3]);
    assert Spaced(w[1..], g[1..]) == w[1] + (g[1] + (w[2] + (g[2] + w[3])));
    assert Spaced(w, g) == w[0] + (g[0] + (w[1] + (g[1] + (w[2] + (g[2] + w[3])))));
  }

  /** The reference words are tokens and its gaps whitespace (literals as parameters, as above). */
  lemma ReferenceWords(words: seq<string>, gaps: seq<string>)
    requires words == ["1", "192.168.1.1", "1.123", "ms"] && gaps == ["  ", "  ", " "]
    ensures IsDigits(words[0]) && forall k :: 1 <= k < |words| ==> IsToken(words[k])
    ensures forall k :: 0 <= k < |gaps| ==> gaps[k] != [] && IsBlank(gaps[k])
  {
    assert IsToken(words[1]) && IsToken(words[2]) && IsToken(words[3]);
  }
}
